=== FILE: README.md ===
# Inbound SIP calls for a LiveKit voice agent — a Dafny model

The repository runs a telephone assistant. Twilio forwards an incoming call
to LiveKit's SIP service, LiveKit puts the caller in a room as a SIP
participant, and a voice agent dispatched to that room answers. The
sequential logic around this is modelled here:

- the agent's inbound-call handler (`agent/inbound_handler.py`): it
  classifies participants as SIP callers, keeps a registry of the
  participants that connected, monitors one call until the caller leaves or
  hangs up, and removes a caller from the room;
- the agent's entrypoint (`agent/main.py`): it connects, looks for the SIP
  caller at once and then every 0.5 s for up to 30 s, shuts the job down
  when nobody comes, and otherwise keeps the call open until the caller
  leaves;
- the pure parts of the HTTP routes (`api/routes.py`): the Twilio variable
  summary, the phone check of the trunk-setup route, the readiness summary,
  the SIP host derived from `LIVEKIT_URL`, and the TwiML documents;
- the call simulator (`scripts/test_inbound_call.py`): phone number
  normalisation, the simulated caller, and the one-minute room watch;
- the trunk setup script (`scripts/setup_inbound_trunk.py`): the trunk
  defaults and the rewrite of the `.env` file that records the new trunk id.

Every LiveKit or Twilio call is a parameter. A roster is the sequence of the
room's remote participants, in dictionary order. A monitor or a search sees
one roster per poll. A failing SDK call is an `Err`, a `Raised` observation
or an error message given to the model. Time is an ideal clock in integer
milliseconds: loop poll `k` of the search runs `(k - 1) * 500` ms after the
loop starts.

Modules: `Common` (options, results, the environment as a string map, Python
truthiness), `Strings` (`startswith`, `in`, `replace`, `split`, `join`),
`Participants`, `InboundHandler`, `AgentMain`, `Routes`, `SimulateCall` and
`TrunkSetup`.

Two behaviours of the routes' code are worth stating, since the model keeps
both:

- with `LIVEKIT_SIP_HOST` set to the empty string and no usable
  `LIVEKIT_URL`, the host stays the empty string;
- with no host at all, the f-string renders `None` into the SIP URI as the
  text `None`.

## Model

| member | source | states |
|---|---|---|
| InboundHandler.IsSipParticipant | agent/inbound_handler.py:49 | a participant is a SIP caller iff its attribute keys include `sip.callStatus` or `sip.from` |
| InboundHandler.ClassificationReadsKeysOnly | agent/inbound_handler.py:49 | participants with the same attribute keys are classified alike, whatever the values or identities |
| InboundHandler.Details | agent/inbound_handler.py:74-75 | caller and called numbers are `sip.from` and `sip.to`, each `"Inconnu"` when absent |
| InboundHandler.NewHandler | agent/inbound_handler.py:21-23 | a new handler serves its room with an empty registry and no monitors |
| InboundHandler.OnParticipantConnected | agent/inbound_handler.py:32-36 | the registry gains identity → participant and keeps every other entry; a monitor starts iff the participant is a SIP caller |
| InboundHandler.ConnectAll | agent/inbound_handler.py:28-36 | after a sequence of connections, the monitors started are the SIP callers in order, and the registry holds exactly the old and new identities |
| InboundHandler.RegistryKeepsLatest | agent/inbound_handler.py:32 | each identity maps to the participant that connected last under it |
| InboundHandler.RegistryUntouched | agent/inbound_handler.py:32 | connections under other identities leave an entry alone |
| InboundHandler.Monitor | agent/inbound_handler.py:87-107 | the monitor stops at the first poll where the caller is absent, its refreshed status is `"hangup"`, or an exception is caught; it is still running iff no poll meets a condition |
| InboundHandler.MonitorReadsIdentityOnly | agent/inbound_handler.py:89-94 | only the watched identity matters; attributes known at the start are never consulted |
| InboundHandler.DepartureBeforeStatus | agent/inbound_handler.py:89-91 | a caller missing from the roster ends the monitor with `Left` before any status is read |
| InboundHandler.HangupExactly | agent/inbound_handler.py:94-101 | a poll ends in `Hangup` iff the caller is listed and its status is exactly `"hangup"` |
| InboundHandler.HangupAfterThreePolls | agent/inbound_handler.py:87-103 | three active polls, then a hang-up: the monitor exits with `Hangup` at poll 3 |
| InboundHandler.EndCall | agent/inbound_handler.py:116-127 | one removal request for exactly (room name, participant identity); a failure is reported, never raised |
| Participants.Lookup | agent/inbound_handler.py:94 | the participant listed under an identity is found iff the identity is present, and it is the only entry with that identity in a roster without duplicates |
| AgentMain.FirstSipIndex | agent/main.py:66-70 | the position of the first participant mentioning `sip.`; none iff no participant does |
| AgentMain.FindSipParticipant | agent/main.py:66-70 | the first participant in roster order whose attributes mention `sip.`, or none when no participant does |
| AgentMain.SipParticipantMentionsSip | agent/main.py:68 | every participant the handler classifies as a SIP caller is found by the entrypoint's test |
| AgentMain.MentionsSipIsWeaker | agent/main.py:68 | the converse fails: a participant with only `sip.to` is found but is not a SIP caller |
| AgentMain.Discover | agent/main.py:73-84 | an immediate check, then polls every interval while less than the timeout has elapsed; the result is the first roster with a SIP participant, or not found after the last poll in the window |
| AgentMain.Poll | agent/main.py:77-84 | after an empty immediate check, the loop polls while less than the timeout has elapsed and stops at the first roster with a SIP participant |
| AgentMain.FoundIffSeenInWindow | agent/main.py:77-84 | the search finds a participant iff some search inside the time window sees one |
| AgentMain.DiscoveryPollsAtMostSixty | agent/main.py:77-84 | with 0.5 s polls and a 30 s timeout, at most 60 loop polls, exactly 60 when nobody joins |
| AgentMain.TwoSecondWindowPollsFourTimes | agent/main.py:80-84 | an empty room searched for 2 s at 0.5 s intervals gives up after four loop polls |
| AgentMain.AwaitDeparture | agent/main.py:120-121 | the wait stops exactly at the first roster without the caller |
| AgentMain.Entrypoint | agent/main.py:55-127 | a connect error or an agent error shuts down with `"Erreur: "` and the message; an empty search shuts down with `"Aucun participant SIP"` before any agent is built; otherwise the call lasts until the caller leaves |
| Routes.TestTwilioEnv | api/routes.py:19-34 | each variable is present iff set and non-empty; the SID prefix is its first ≤ 4 characters plus `...` iff the SID is non-empty; all present iff all three are |
| Routes.RequestedPhone | api/routes.py:75-76 | the body's `phone_number` when the key is there, else `TWILIO_PHONE_NUMBER` |
| Routes.SetupInboundTrunk | api/routes.py:71-120 | 400 "phone missing" iff the requested number is unset or empty; otherwise the created trunk id with the number, or the creation error |
| Routes.RouteConfigRequestsTrunk | api/routes.py:85-100 | the configuration the route writes makes the script request `"Inbound SIP Trunk"` for exactly that number, with Krisp on |
| Routes.FirstListed | api/routes.py:254-279 | a trunk or rule is found iff its id is configured and the listing returned at least one item, which is then the first |
| Routes.CheckInboundSetup | api/routes.py:242-344 | ready for calls iff a trunk and a dispatch rule were found and the agent is available; the agent is available iff the test dispatch was created and its room deleted; a client error is reported |
| Routes.NotReadyWithoutSetup | api/routes.py:254-323 | never ready without both ids configured, the test dispatch created and its room deleted; when ready, the trunk and rule are the first listed items |
| Routes.DeriveSipHost | api/routes.py:416-422 | none iff the URL without schemes has no `.`; a derived host ends with `.sip.livekit.cloud`, and its project part has no `.` and is the text before the first `.` |
| Routes.SipHost | api/routes.py:412-422 | a non-empty `LIVEKIT_SIP_HOST` is used as is; otherwise, with a non-empty `LIVEKIT_URL`, the host derived from it when it has one; otherwise `LIVEKIT_SIP_HOST` unchanged; any other host is a derived one ending with `.sip.livekit.cloud` |
| Routes.CloudUrlSipHost | api/routes.py:412-422 | without a configured host, a `LIVEKIT_URL` of the form `wss://<project>.<domain>`, with no further scheme marker after `wss://` (a port or path may follow), makes the routes dial `<project>.sip.livekit.cloud` |
| Routes.CloudUrlGivesProjectHost | api/routes.py:417-422 | `wss://<project>.<domain>` gives `<project>.sip.livekit.cloud` for every project without `.` and every domain (port and path included) in which no further `wss://` or `ws://` occurs |
| Routes.ProjectIdHost | api/routes.py:417-418 | `wss://project-id.livekit.cloud` gives `project-id.sip.livekit.cloud` |
| Routes.SipUri | api/routes.py:436 | the URI is `sip:<phone>@`, then the host as the f-string renders it (the text `None` when absent), then `;transport=tcp` |
| Routes.TwimlDocument | api/routes.py:432-439 | the TwiML document contains the SIP URI it dials |
| Routes.GetTwiml | api/routes.py:407-446 | `/api/twilio/twiml` returns the computed SIP host, the phone or its placeholder, and a document dialling that URI |
| Routes.TwimlEndpoint | api/routes.py:502-533 | `/twiml` dials the SIP URI for the computed host and phone |
| Routes.SetupTwilioTwiml | api/routes.py:462-473 | `/api/twilio/setup` dials `LIVEKIT_SIP_HOST` or the placeholder host, never a derived one |
| Routes.TwimlRoutesAgree | api/routes.py:507-517 | the two TwiML routes compute the same host and, without query parameters, the same document |
| Routes.SetupTwimlMatchesWhenHostSet | api/routes.py:463 | with a non-empty `LIVEKIT_SIP_HOST` the setup instructions show the `/twiml` document |
| Routes.UnconfiguredHostRendersNone | api/routes.py:527 | without any host configuration `/twiml` dials the literal host `None` |
| SimulateCall.ChoosePhone | scripts/test_inbound_call.py:28-29 | a non-empty argument is used, else `TWILIO_PHONE_NUMBER`, else `+15105551234` |
| SimulateCall.KeepDialChars | scripts/test_inbound_call.py:36 | the result keeps only digits and `+`, keeps every `+` of the input, and is no longer than the input |
| SimulateCall.KeepDialCharsSingle | scripts/test_inbound_call.py:36 | a single character is kept iff it is a digit or `+` |
| SimulateCall.KeepDialCharsAppend | scripts/test_inbound_call.py:36 | the filter works character by character: filtering a concatenation concatenates the filtered parts, so every kept character stays in its order |
| SimulateCall.KeepDialCharsKeepsDigits | scripts/test_inbound_call.py:36 | filtering keeps every digit, in order |
| SimulateCall.KeepDialCharsFixes | scripts/test_inbound_call.py:36 | a string of digits and `+` is left unchanged |
| SimulateCall.Normalize | scripts/test_inbound_call.py:32-36 | the number starts with `+` and holds only digits and `+`; it is the filtered input, with one `+` put in front when the input did not start with one; it has the input's digits in order and its `+` signs plus that added one |
| SimulateCall.NormalizeIdempotent | scripts/test_inbound_call.py:32-36 | normalising a normalised number changes nothing |
| SimulateCall.SimulatedCallerIsSip | scripts/test_inbound_call.py:59-66 | the simulated caller has identity `sim_caller_<number>`, is a SIP caller for the handler and the entrypoint, and keeps a monitor running while active |
| SimulateCall.WatchRoom | scripts/test_inbound_call.py:76-81 | one to 12 rounds; every round but the last saw the room; the last decides the end: no room, a listing that raised, or the twelfth round with the room still listed |
| SimulateCall.Simulate | scripts/test_inbound_call.py:26-91 | the number is normalised; no request is made iff `INBOUND_TRUNK_ID` is unset or empty; otherwise the request is for the room `test-inbound-<token>`, names the trunk and the caller, and the room is watched iff the request does not fail |
| TrunkSetup.Fields | scripts/setup_inbound_trunk.py:30-51 | a file without `trunk` gives `{}`; without a file, the trunk for the environment's number, or for the typed one |
| TrunkSetup.TrunkDefaults | scripts/setup_inbound_trunk.py:55-57 | each missing field takes its own default, `"Inbound SIP Trunk"`, no numbers and Krisp on, whatever the other fields; fields present are used as given |
| TrunkSetup.PromptedTrunk | scripts/setup_inbound_trunk.py:40-51 | without a file, the default trunk for the environment's number, or for the typed number |
| TrunkSetup.RewriteLines | scripts/setup_inbound_trunk.py:78-82 | the line count is kept and each line is rewritten on its own |
| TrunkSetup.UpdateRewritesAssignments | scripts/setup_inbound_trunk.py:74-83 | when the key is mentioned, the line count is kept, assignment lines become `INBOUND_TRUNK_ID=<id>` and other lines are unchanged |
| TrunkSetup.UpdateAppendsWhenUnmentioned | scripts/setup_inbound_trunk.py:84-86 | when the key is not mentioned, the content is a prefix of the result and the last line is the assignment |
| TrunkSetup.AppendedAssignment | scripts/setup_inbound_trunk.py:86 | the appended text splits into the old lines followed by the assignment |
| TrunkSetup.UpdateKeepsContentWithoutAssignment | scripts/setup_inbound_trunk.py:74-83 | when the key is mentioned but no line assigns it, the file is written back unchanged |
| TrunkSetup.AssignmentLinesMentionKey | scripts/setup_inbound_trunk.py:74-79 | a file with an assignment line mentions the key, so the rewrite branch is taken |
| TrunkSetup.UpdateMentionsKey | scripts/setup_inbound_trunk.py:74-86 | the updated file always mentions the key |
| TrunkSetup.RewriteTwice | scripts/setup_inbound_trunk.py:78-82 | rewriting the lines twice with one id is rewriting them once |
| TrunkSetup.UpdateIdempotent | scripts/setup_inbound_trunk.py:74-86 | updating twice with the same id gives the result of updating once |
| TrunkSetup.UpdateDropsIdAfterComment | scripts/setup_inbound_trunk.py:74-83 | for every id, a file holding only `# INBOUND_TRUNK_ID` comes back unchanged and assigns nothing |
| TrunkSetup.UpdateRecordedAssigns | scripts/setup_inbound_trunk.py:74-86 | the corrected update always leaves a line assigning the id, adds at most one line, and keeps every other line |
| TrunkSetup.UpdateRecordedAgrees | scripts/setup_inbound_trunk.py:74-86 | the corrected update equals the script's whenever the script records the id |
| TrunkSetup.UpdateRecordedIdempotent | scripts/setup_inbound_trunk.py:74-86 | the corrected update is idempotent |
| TrunkSetup.UpdateCases | scripts/setup_inbound_trunk.py:74-86 | the script's update assigns a newline-free id when the file has an assignment line or does not mention the key, and returns a file that only mentions the key unchanged |
| TrunkSetup.CreateInboundTrunk | scripts/setup_inbound_trunk.py:14-100 | the request is the trunk description with defaults; the creation result is passed on; `.env` is written iff creation succeeded and the file could be read, with the script's update: the id is assigned when the file has an assignment line or does not mention the key, and a file that only mentions it is written back unchanged |
| TrunkSetup.CreateInboundTrunkRecorded | scripts/setup_inbound_trunk.py:74-91 | the run with the corrected update: the same request, result and write condition, a newline-free id always assigned, and the same run as the script whenever the script records the id |
| Strings.ReplaceAll | api/routes.py:419 | `str.replace` leaves text without the pattern unchanged |
| Strings.ReplaceFirstOccurrence | api/routes.py:419 | `str.replace` copies the text before the first occurrence of the pattern, replaces that occurrence, and carries on with the rest, so every non-overlapping occurrence is replaced from left to right |
| Strings.Split | scripts/setup_inbound_trunk.py:76 | `str.split` gives at least one piece, no piece holds the separator, and the first piece runs up to the first separator |
| Strings.JoinSplit | scripts/setup_inbound_trunk.py:76-83 | joining the pieces of a split gives back the text |
| Strings.SplitJoin | scripts/setup_inbound_trunk.py:76-83 | splitting the join of separator-free pieces gives back the pieces |

## Left out

- LiveKit and Twilio SDK calls are parameters of the model: room listings, trunk and rule listings, dispatch creation, room deletion, participant creation and removal, trunk creation.
- Sleeps, the event loop and the monitor tasks are not modelled. `InboundHandler.Monitor` sees one observation per poll. `AgentMain.Discover` assumes a search takes no time on an ideal clock. `SimulateCall.WatchRoom` counts rounds, not seconds.
- The concurrency between monitor tasks, the entrypoint and the voice pipeline is not modelled. `InboundHandler.ConnectAll` treats the connection events as one ordered sequence.
- The voice pipeline, its plugins, the prompt, the welcome message, `CallActions`, `prewarm` and `request_handler` are SDK configuration without logic to model.
- Logging and printing are not modelled, including the participant count logged by the room watch.
- File I/O is not modelled. The temporary JSON files and `.env` appear only as their contents. A `.env` that cannot be read or written is an absent content.
- AgentMain.MentionsSip: `"sip." in str(attributes)` is abstracted as "some key or value contains `sip.`". The text of Python's dictionary repr is not modelled.
- SimulateCall.IsDigit: only ASCII digits count. Unicode digits accepted by `str.isdigit` are not modelled.
- Routes.RequestedPhone: JSON values other than strings and `null` are not modelled.
- AgentMain.Entrypoint: exceptions are modelled only where connecting or starting the voice agent raises. An exception while polling the roster is not modelled.
- Routes.TwimlEndpoint: the error document of `api/routes.py:535-541` is not modelled. It is returned only when building the document raises, and no modelled step raises.
- The health, LiveKit connection test, agent status, dispatch setup and direct setup routes are left out: each is an SDK call wrapped in a JSON reply. The dispatch setup route passes a file name as `room_prefix` at `api/routes.py:148`; that call site is not modelled.
- `run.py`, `api/app.py`, `scripts/setup_dispatch_rule.py` and `scripts/init.py` are process launching, web framework wiring and interactive orchestration, and are not part of this model.
- The random test room names (`secrets.token_hex`) are parameters.

## Findings

| source | as written | input that shows it | evidently intended | confidence | as-written member | corrected member |
|---|---|---|---|---|---|---|
| scripts/setup_inbound_trunk.py:74-83 | the rewrite branch is chosen when `INBOUND_TRUNK_ID` occurs anywhere in `.env`, and then only lines starting with `INBOUND_TRUNK_ID=` are replaced | a `.env` holding `# INBOUND_TRUNK_ID` (a comment) and no assignment: the file is written back unchanged, the new id is not recorded, yet the script reports that it was | the id is recorded in every case: replace the assignment lines when there are any, append one otherwise | not executed | TrunkSetup.UpdateDropsIdAfterComment | TrunkSetup.UpdateRecordedAssigns |

=== FILE: agent_main.dfy ===
/** The agent's entrypoint for one inbound call: connect to the room, find the
    SIP caller (at once, then by polling until a timeout), shut the job down
    when nobody comes, otherwise run the voice agent until the caller leaves.
    Time is an ideal clock in milliseconds. */
module AgentMain {
  import opened Common
  import opened Strings
  import opened Participants
  import InboundHandler

  /** The text whose presence in a participant's attributes marks a SIP
      participant for the entrypoint. */
  const SipMarker := "sip."
  const NoCallerReason := "Aucun participant SIP"
  const ErrorPrefix := "Erreur: "

  // ---------------------------------------------------------------------
  // Finding the SIP participant

  /** `"sip." in str(participant.attributes)`: some attribute key or value
      contains `"sip."`. */
  predicate MentionsSip(p: Participant) {
    exists k :: k in p.attributes && (Contains(k, SipMarker) || Contains(p.attributes[k], SipMarker))
  }

  /** The position of the first participant that mentions `"sip."`. */
  function FirstSipIndex(roster: Roster): (r: Option<nat>)
    ensures r.Some? ==> r.value < |roster| && MentionsSip(roster[r.value])
    ensures r.Some? ==> forall j :: 0 <= j < r.value ==> !MentionsSip(roster[j])
    ensures r.None? <==> forall j :: 0 <= j < |roster| ==> !MentionsSip(roster[j])
    decreases |roster|
  {
    if |roster| == 0 then None
    else if MentionsSip(roster[0]) then Some(0)
    else
      match FirstSipIndex(roster[1..])
      case None =>
        assert forall j :: 1 <= j < |roster| ==> roster[j] == roster[1..][j - 1];
        None
      case Some(i) =>
        assert forall j :: 1 <= j <= i + 1 ==> roster[j] == roster[1..][j - 1];
        Some(i + 1)
  }

  /** `find_sip_participant`: the first participant, in roster order, whose
      attributes mention `"sip."`, or none. */
  function FindSipParticipant(roster: Roster): (r: Option<Participant>)
    ensures r.Some? ==> exists i :: 0 <= i < |roster| && roster[i] == r.value && MentionsSip(r.value)
                                  && forall j :: 0 <= j < i ==> !MentionsSip(roster[j])
    ensures r.None? <==> forall j :: 0 <= j < |roster| ==> !MentionsSip(roster[j])
  {
    match FirstSipIndex(roster)
    case None => None
    case Some(i) => Some(roster[i])
  }

  /** Every participant the handler classifies as a SIP caller also mentions
      `"sip."`, so the entrypoint finds it. */
  lemma SipParticipantMentionsSip(p: Participant)
    requires InboundHandler.IsSipParticipant(p)
    ensures MentionsSip(p)
  {
    if InboundHandler.CallStatusKey in p.attributes {
      assert StartsWith(InboundHandler.CallStatusKey, SipMarker);
      assert Contains(InboundHandler.CallStatusKey, SipMarker);
    } else {
      assert StartsWith(InboundHandler.FromKey, SipMarker);
      assert Contains(InboundHandler.FromKey, SipMarker);
    }
  }

  /** The converse fails: a participant carrying only `sip.to` mentions
      `"sip."` but is not a SIP caller for the handler. */
  lemma MentionsSipIsWeaker()
    ensures var p := Participant("callee", "callee", map[InboundHandler.ToKey := "+15105551234"]);
            MentionsSip(p) && !InboundHandler.IsSipParticipant(p)
  {
    var p := Participant("callee", "callee", map[InboundHandler.ToKey := "+15105551234"]);
    assert StartsWith(InboundHandler.ToKey, SipMarker);
    assert Contains(InboundHandler.ToKey, SipMarker);
  }

  // ---------------------------------------------------------------------
  // Waiting for the caller

  /** The polling interval and the overall timeout of the search, in ms. */
  datatype Timing = Timing(interval: nat, timeout: int)

  /** Poll every 0.5 s for at most 30 s. */
  const DiscoveryTiming := Timing(500, 30000)

  /** The search found a participant after `polls` loop polls (0: found by
      the immediate check), or gave up after `polls` loop polls. */
  datatype Discovery = Found(participant: Participant, polls: nat) | NotFound(polls: nat)

  /** What the search promises. Search `k` sees `rosters(k)`: search 0 is the
      immediate check, and loop poll `k` (from 1) runs `k - 1` intervals after
      the loop starts, only while less than the timeout has elapsed. The
      search stops at the first hit. */
  ghost predicate SearchSpec(rosters: nat -> Roster, t: Timing, d: Discovery) {
    match d
    case Found(p, n) =>
      && FindSipParticipant(rosters(n)) == Some(p)
      && (forall j :: 0 <= j < n ==> FindSipParticipant(rosters(j)).None?)
      && (n == 0 || (n - 1) * t.interval < t.timeout)
    case NotFound(n) =>
      && (forall j :: 0 <= j <= n ==> FindSipParticipant(rosters(j)).None?)
      && n * t.interval >= t.timeout
      && (n == 0 || (n - 1) * t.interval < t.timeout)
  }

  /** The immediate check, then the bounded polling loop. */
  method Discover(rosters: nat -> Roster, t: Timing) returns (d: Discovery)
    requires t.interval > 0
    ensures SearchSpec(rosters, t, d)
  {
    var found := FindSipParticipant(rosters(0));
    if found.Some? {
      d := Found(found.value, 0);
    } else {
      d := Poll(rosters, t);
    }
  }

  /** `while elapsed < timeout`: poll, stop at the first hit, then wait one
      interval. Only entered after the immediate check found nobody. In the
      program nothing is awaited between the immediate check and the first
      loop poll, so `rosters(1)` is `rosters(0)` there; the model allows any
      roster, which only widens the behaviours it covers. */
  method Poll(rosters: nat -> Roster, t: Timing) returns (d: Discovery)
    requires t.interval > 0
    requires FindSipParticipant(rosters(0)).None?
    ensures SearchSpec(rosters, t, d)
  {
    var polls: nat := 0;
    var elapsed := 0;
    while elapsed < t.timeout
      invariant elapsed == polls * t.interval
      invariant forall j :: 0 <= j <= polls ==> FindSipParticipant(rosters(j)).None?
      invariant polls == 0 || (polls - 1) * t.interval < t.timeout
      decreases t.timeout - elapsed
    {
      assert polls * t.interval < t.timeout;
      var found := FindSipParticipant(rosters(polls + 1));
      if found.Some? {
        return Found(found.value, polls + 1);
      }
      assert (polls + 1) * t.interval == elapsed + t.interval;
      polls := polls + 1;
      elapsed := elapsed + t.interval;
    }
    return NotFound(polls);
  }

  lemma MulMonotone(a: int, b: int, c: nat)
    requires a <= b
    ensures a * c <= b * c
  {
  }

  /** Loop poll `j` runs while less than the timeout has elapsed
      (search 0, the immediate check, always runs). */
  ghost predicate InWindow(j: nat, t: Timing) {
    j == 0 || (j - 1) * t.interval < t.timeout
  }

  /** The search finds a participant exactly when some search inside the
      window sees one; otherwise it reports that nobody came. */
  lemma FoundIffSeenInWindow(rosters: nat -> Roster, t: Timing, d: Discovery)
    requires t.interval > 0
    requires SearchSpec(rosters, t, d)
    ensures d.Found? <==> exists j: nat :: InWindow(j, t) && FindSipParticipant(rosters(j)).Some?
  {
    if d.NotFound? {
      forall j: nat | InWindow(j, t) ensures FindSipParticipant(rosters(j)).None? {
        if j > d.polls {
          MulMonotone(d.polls, j - 1, t.interval);
        }
      }
    } else {
      assert InWindow(d.polls, t);
    }
  }

  /** With the source's timing the loop polls at most 60 times, and exactly 60
      times when nobody joins. */
  lemma DiscoveryPollsAtMostSixty(rosters: nat -> Roster, d: Discovery)
    requires SearchSpec(rosters, DiscoveryTiming, d)
    ensures d.polls <= 60
    ensures d.NotFound? ==> d.polls == 60
  {
  }

  /** An empty room watched for 2 s at 0.5 s intervals: four loop polls, then
      no participant. */
  lemma TwoSecondWindowPollsFourTimes(d: Discovery)
    requires SearchSpec((k: nat) => [], Timing(500, 2000), d)
    ensures d == NotFound(4)
  {
    assert FindSipParticipant([]).None?;
  }

  // ---------------------------------------------------------------------
  // The entrypoint

  /** `while identity in room.remote_participants: sleep(1)`, over the
      rosters seen by successive checks: stops at the first roster without
      the caller, or is still waiting after the last one. */
  method AwaitDeparture(identity: Identity, rosters: seq<Roster>) returns (gone: bool, checks: nat)
    ensures gone ==> checks < |rosters| && !Present(rosters[checks], identity)
    ensures !gone ==> checks == |rosters|
    ensures forall j :: 0 <= j < checks ==> Present(rosters[j], identity)
  {
    checks := 0;
    while checks < |rosters| && Present(rosters[checks], identity)
      invariant checks <= |rosters|
      invariant forall j :: 0 <= j < checks ==> Present(rosters[j], identity)
    {
      checks := checks + 1;
    }
    gone := checks < |rosters|;
  }

  /** What the entrypoint meets: whether connecting raises, the rosters seen
      by the search, whether building, starting or greeting with the voice
      agent raises, and the rosters seen by the departure checks. */
  datatype JobContext = JobContext(
    connectError: Option<string>,
    discovery: nat -> Roster,
    agentError: Option<string>,
    departure: seq<Roster>)

  /** The job was shut down with a reason (with the caller, when one had been
      found), or the caller left after `checks` departure checks, or the
      caller was still in the room after the last check given. */
  datatype EntryOutcome =
    | ShutDown(reason: string, found: Option<Identity>)
    | CallEnded(caller: Identity, checks: nat)
    | StillInCall(caller: Identity)

  /** `entrypoint`: any exception ends in a shutdown with reason
      `"Erreur: "` and its message; an empty search ends in a shutdown with
      reason `"Aucun participant SIP"` before any voice agent is built;
      otherwise the call lasts until the found caller leaves the room. */
  method Entrypoint(ctx: JobContext) returns (search: Option<Discovery>, o: EntryOutcome)
    ensures ctx.connectError.Some? ==>
              search.None? && o == ShutDown(ErrorPrefix + ctx.connectError.value, None)
    ensures ctx.connectError.None? ==>
              search.Some? && SearchSpec(ctx.discovery, DiscoveryTiming, search.value)
    ensures search.Some? && search.value.NotFound? ==> o == ShutDown(NoCallerReason, None)
    ensures search.Some? && search.value.Found? && ctx.agentError.Some? ==>
              o == ShutDown(ErrorPrefix + ctx.agentError.value, Some(search.value.participant.identity))
    ensures search.Some? && search.value.Found? && ctx.agentError.None? ==>
              var id := search.value.participant.identity;
              && (o.CallEnded? || o.StillInCall?)
              && o.caller == id
              && (o.CallEnded? ==> o.checks < |ctx.departure| && !Present(ctx.departure[o.checks], id))
              && (o.StillInCall? ==> forall j :: 0 <= j < |ctx.departure| ==> Present(ctx.departure[j], id))
              && (o.CallEnded? ==> forall j :: 0 <= j < o.checks ==> Present(ctx.departure[j], id))
  {
    if ctx.connectError.Some? {
      return None, ShutDown(ErrorPrefix + ctx.connectError.value, None);
    }
    var d := Discover(ctx.discovery, DiscoveryTiming);
    search := Some(d);
    if d.NotFound? {
      return search, ShutDown(NoCallerReason, None);
    }
    var caller := d.participant;
    if ctx.agentError.Some? {
      return search, ShutDown(ErrorPrefix + ctx.agentError.value, Some(caller.identity));
    }
    var gone, checks := AwaitDeparture(caller.identity, ctx.departure);
    if gone {
      o := CallEnded(caller.identity, checks);
    } else {
      o := StillInCall(caller.identity);
    }
  }
}

=== FILE: common.dfy ===
/** Values shared by every module of the model: optional values, results,
    and the process environment (`os.environ`) with Python's truthiness. */
module Common {

  /** A value that may be absent, as Python's `None`. */
  datatype Option<+T> = None | Some(value: T) {

    /** The value, or `default` when absent (`d.get(k, default)`). */
    function GetOr(default: T): T {
      match this
      case Some(v) => v
      case None => default
    }
  }

  /** The outcome of a call that either returns a value or raises. */
  datatype Result<+T, +E> = Ok(value: T) | Err(error: E)

  /** The process environment: variable name to value. */
  type Environment = map<string, string>

  /** The environment variables several parts of the system read. */
  const TrunkIdVar := "INBOUND_TRUNK_ID"
  const PhoneVar := "TWILIO_PHONE_NUMBER"

  /** `os.environ.get(name)`. */
  function Get(env: Environment, name: string): (r: Option<string>)
    ensures r.Some? <==> name in env
    ensures r.Some? ==> r.value == env[name]
  {
    if name in env then Some(env[name]) else None
  }

  /** Python truthiness of an optional string: present and non-empty. */
  predicate Truthy(s: Option<string>) {
    s.Some? && |s.value| > 0
  }

  /** `os.environ.get(name, default)`: the default is used only when the
      variable is absent, so an empty value is kept. */
  function GetOr(env: Environment, name: string, default: string): (r: string)
    ensures name in env ==> r == env[name]
    ensures name !in env ==> r == default
  {
    Get(env, name).GetOr(default)
  }

  /** Python's `str()` of an optional string, as an f-string renders it. */
  function Render(s: Option<string>): string {
    match s
    case Some(v) => v
    case None => "None"
  }
}

=== FILE: inbound_handler.dfy ===
/** The inbound-call handler of the agent: it records every participant that
    connects, recognises SIP callers, watches a caller's call status until the
    caller leaves or hangs up, and can force a caller out of the room. */
module InboundHandler {
  import opened Common
  import opened Participants

  const CallStatusKey := "sip.callStatus"
  const FromKey := "sip.from"
  const ToKey := "sip.to"
  /** The only call status that ends monitoring. */
  const HangupStatus := "hangup"
  /** Shown for a caller or called number the SIP provider did not set. */
  const UnknownNumber := "Inconnu"

  // ---------------------------------------------------------------------
  // Classifying participants

  /** A participant is a SIP caller when its attributes carry a call status
      or a caller number; the values do not matter. */
  predicate IsSipParticipant(p: Participant)
    ensures IsSipParticipant(p) <==> p.attributes.Keys * {CallStatusKey, FromKey} != {}
  {
    var b := CallStatusKey in p.attributes || FromKey in p.attributes;
    assert b ==> (CallStatusKey in p.attributes.Keys * {CallStatusKey, FromKey}
                  || FromKey in p.attributes.Keys * {CallStatusKey, FromKey});
    assert !b ==> p.attributes.Keys * {CallStatusKey, FromKey} == {};
    b
  }

  /** Two participants whose attributes have the same keys are classified
      alike, whatever their values and identities. */
  lemma ClassificationReadsKeysOnly(p: Participant, q: Participant)
    requires p.attributes.Keys == q.attributes.Keys
    ensures IsSipParticipant(p) == IsSipParticipant(q)
  {
  }

  /** The caller and called numbers logged when monitoring starts. */
  datatype CallDetails = CallDetails(caller: string, called: string)

  function Details(p: Participant): (d: CallDetails)
    ensures FromKey in p.attributes ==> d.caller == p.attributes[FromKey]
    ensures FromKey !in p.attributes ==> d.caller == UnknownNumber
    ensures ToKey in p.attributes ==> d.called == p.attributes[ToKey]
    ensures ToKey !in p.attributes ==> d.called == UnknownNumber
  {
    CallDetails(Attribute(p, FromKey).GetOr(UnknownNumber), Attribute(p, ToKey).GetOr(UnknownNumber))
  }

  // ---------------------------------------------------------------------
  // The participant registry

  /** The handler's state: the room it serves, every participant seen so far
      by identity, and the identities for which a monitor task was started,
      in start order. */
  datatype Handler = Handler(room: string, registry: map<Identity, Participant>, monitored: seq<Identity>)

  /** A fresh handler for a room: nothing registered, nothing monitored. */
  function NewHandler(room: string): (h: Handler)
    ensures h.room == room && |h.registry| == 0 && |h.monitored| == 0
  {
    Handler(room, map[], [])
  }

  /** The `participant_connected` event: the participant is registered under
      its identity, replacing any earlier entry, and a monitor is started for
      it exactly when it is a SIP caller. */
  function OnParticipantConnected(h: Handler, p: Participant): (h': Handler)
    ensures h'.room == h.room
    ensures h'.registry.Keys == h.registry.Keys + {p.identity}
    ensures h'.registry[p.identity] == p
    ensures forall id :: id in h.registry && id != p.identity ==> h'.registry[id] == h.registry[id]
    ensures IsSipParticipant(p) ==> h'.monitored == h.monitored + [p.identity]
    ensures !IsSipParticipant(p) ==> h'.monitored == h.monitored
  {
    var registry := h.registry[p.identity := p];
    if IsSipParticipant(p) then Handler(h.room, registry, h.monitored + [p.identity])
    else Handler(h.room, registry, h.monitored)
  }

  /** The SIP callers among a sequence of participants, in order. */
  function SipIdentities(ps: seq<Participant>): seq<Identity>
    decreases |ps|
  {
    if |ps| == 0 then []
    else (if IsSipParticipant(ps[0]) then [ps[0].identity] else []) + SipIdentities(ps[1..])
  }

  /** The identities of a sequence of participants. */
  function Identities(ps: seq<Participant>): set<Identity>
    decreases |ps|
  {
    if |ps| == 0 then {} else {ps[0].identity} + Identities(ps[1..])
  }

  /** A sequence of `participant_connected` events, oldest first. */
  function ConnectAll(h: Handler, ps: seq<Participant>): (h': Handler)
    ensures h'.room == h.room
    ensures h'.monitored == h.monitored + SipIdentities(ps)
    ensures h'.registry.Keys == h.registry.Keys + Identities(ps)
    decreases |ps|
  {
    if |ps| == 0 then h
    else
      var h1 := OnParticipantConnected(h, ps[0]);
      var r := ConnectAll(h1, ps[1..]);
      assert h1.monitored == h.monitored + (if IsSipParticipant(ps[0]) then [ps[0].identity] else []);
      assert r.monitored == h.monitored + SipIdentities(ps);
      r
  }

  /** After a sequence of connections, each identity maps to the participant
      that connected last under it. */
  lemma {:induction false} RegistryKeepsLatest(h: Handler, ps: seq<Participant>, k: nat)
    requires k < |ps|
    requires forall j :: k < j < |ps| ==> ps[j].identity != ps[k].identity
    ensures ps[k].identity in ConnectAll(h, ps).registry
    ensures ConnectAll(h, ps).registry[ps[k].identity] == ps[k]
    decreases |ps|
  {
    var h1 := OnParticipantConnected(h, ps[0]);
    if k == 0 {
      RegistryUntouched(h1, ps[1..], ps[0].identity);
    } else {
      RegistryKeepsLatest(h1, ps[1..], k - 1);
    }
  }

  /** Connections under other identities leave an entry alone. */
  lemma {:induction false} RegistryUntouched(h: Handler, ps: seq<Participant>, id: Identity)
    requires id in h.registry
    requires forall j :: 0 <= j < |ps| ==> ps[j].identity != id
    ensures id in ConnectAll(h, ps).registry
    ensures ConnectAll(h, ps).registry[id] == h.registry[id]
    decreases |ps|
  {
    if |ps| > 0 {
      RegistryUntouched(OnParticipantConnected(h, ps[0]), ps[1..], id);
    }
  }

  // ---------------------------------------------------------------------
  // Monitoring a call

  /** What one poll of the room sees: the current roster, or the exception
      raised while reading it. */
  datatype Observation = Snapshot(roster: Roster) | Raised(error: string)

  /** Why a monitor stopped: the caller left the room, the call status became
      `"hangup"`, or an exception was caught and logged. */
  datatype ExitReason = Left | Hangup | Failed(error: string)

  /** The monitor either stopped at a poll, counted from 0, or was still
      polling after the last observation given. */
  datatype MonitorOutcome = Exited(reason: ExitReason, poll: nat) | StillMonitoring

  /** The outcome of the remaining polls, one poll later. */
  function Later(o: MonitorOutcome): MonitorOutcome {
    match o
    case Exited(reason, i) => Exited(reason, i + 1)
    case StillMonitoring => StillMonitoring
  }

  /** The exit condition of a single poll for the caller with the given
      identity: departure is checked before the status, and the status read
      is that of the participant currently listed under the identity. */
  function ExitAt(identity: Identity, obs: Observation): Option<ExitReason> {
    match obs
    case Raised(e) => Some(Failed(e))
    case Snapshot(roster) =>
      match Lookup(roster, identity)
      case None => Some(Left)
      case Some(current) =>
        if Attribute(current, CallStatusKey) == Some(HangupStatus) then Some(Hangup) else None
  }

  /** `monitor_call_status`: on each poll, stop if the caller is no longer in
      the room; otherwise refresh the caller by identity and stop if its call
      status is exactly `"hangup"`; otherwise wait one interval. Poll `i`
      happens `i` check intervals after the start. An exception ends the
      monitor and is never passed on. The result is the first poll that meets
      an exit condition, and the monitor is still running when there is
      none. */
  function Monitor(watched: Participant, polls: seq<Observation>): (o: MonitorOutcome)
    ensures o.Exited? ==>
              && o.poll < |polls|
              && ExitAt(watched.identity, polls[o.poll]) == Some(o.reason)
              && forall j :: 0 <= j < o.poll ==> ExitAt(watched.identity, polls[j]).None?
    ensures o.StillMonitoring? <==> forall j :: 0 <= j < |polls| ==> ExitAt(watched.identity, polls[j]).None?
    decreases |polls|
  {
    if |polls| == 0 then StillMonitoring
    else match polls[0]
      case Raised(e) => Exited(Failed(e), 0)
      case Snapshot(roster) =>
        if !Present(roster, watched.identity) then Exited(Left, 0)
        else
          var current := Lookup(roster, watched.identity).value;
          if Attribute(current, CallStatusKey) == Some(HangupStatus) then Exited(Hangup, 0)
          else
            var rest := Monitor(current, polls[1..]);
            assert forall j :: 1 <= j < |polls| ==> polls[j] == polls[1..][j - 1];
            Later(rest)
  }

  /** Only the identity of the watched participant matters: attributes known
      when monitoring started, such as an earlier `"hangup"`, are never
      consulted. */
  lemma {:induction false} MonitorReadsIdentityOnly(p: Participant, q: Participant, polls: seq<Observation>)
    requires p.identity == q.identity
    ensures Monitor(p, polls) == Monitor(q, polls)
    decreases |polls|
  {
    if |polls| > 0 && polls[0].Snapshot? && Present(polls[0].roster, p.identity) {
      var current := Lookup(polls[0].roster, p.identity).value;
      MonitorReadsIdentityOnly(current, current, polls[1..]);
    }
  }

  /** Departure is checked first: a caller missing from the roster ends the
      monitor with `Left`, whatever status it last had. */
  lemma DepartureBeforeStatus(watched: Participant, roster: Roster, rest: seq<Observation>)
    requires !Present(roster, watched.identity)
    ensures Monitor(watched, [Snapshot(roster)] + rest) == Exited(Left, 0)
  {
  }

  /** The monitor stops with `Hangup` at a poll exactly when the caller is
      listed and its refreshed status is the exact string `"hangup"`; any
      other status, or none, keeps it polling. */
  lemma HangupExactly(watched: Participant, roster: Roster, rest: seq<Observation>)
    ensures Monitor(watched, [Snapshot(roster)] + rest) == Exited(Hangup, 0) <==>
              && Present(roster, watched.identity)
              && CallStatusKey in Lookup(roster, watched.identity).value.attributes
              && Lookup(roster, watched.identity).value.attributes[CallStatusKey] == HangupStatus
  {
  }

  /** A caller who hangs up after three active polls is seen hung up on the
      fourth poll. */
  lemma HangupAfterThreePolls()
    ensures
      var active := Participant("caller-1", "caller-1", map[FromKey := "+15551234567", CallStatusKey := "active"]);
      var hungUp := Participant("caller-1", "caller-1", map[FromKey := "+15551234567", CallStatusKey := HangupStatus]);
      var polls := [Snapshot([active]), Snapshot([active]), Snapshot([active]), Snapshot([hungUp])];
      Monitor(active, polls) == Exited(Hangup, 3)
  {
    var active := Participant("caller-1", "caller-1", map[FromKey := "+15551234567", CallStatusKey := "active"]);
    var hungUp := Participant("caller-1", "caller-1", map[FromKey := "+15551234567", CallStatusKey := HangupStatus]);
    var polls := [Snapshot([active]), Snapshot([active]), Snapshot([active]), Snapshot([hungUp])];
    assert Attribute(active, CallStatusKey) == Some("active");
    assert Monitor(active, polls[3..]) == Exited(Hangup, 0);
    assert polls[1..][1..] == polls[2..];
    assert polls[2..][1..] == polls[3..];
  }

  // ---------------------------------------------------------------------
  // Ending a call

  /** The removal request sent to the room service. */
  datatype RemoveRequest = RemoveRequest(room: string, identity: Identity)

  /** `end_call` either removed the caller or logged why it could not. */
  datatype EndCallOutcome = Removed(request: RemoveRequest) | RemoveFailed(request: RemoveRequest, error: string)

  /** `end_call`: exactly one removal request, for the handler's room and the
      participant's identity; a failure of the room service (`service` gives
      the message it raised, if any) is caught and reported, never raised. */
  function EndCall(h: Handler, p: Participant, service: RemoveRequest -> Option<string>): (r: EndCallOutcome)
    ensures r.request == RemoveRequest(h.room, p.identity)
    ensures r.Removed? <==> service(r.request).None?
    ensures r.RemoveFailed? ==> service(r.request) == Some(r.error)
  {
    var request := RemoveRequest(h.room, p.identity);
    match service(request)
    case None => Removed(request)
    case Some(e) => RemoveFailed(request, e)
  }
}

=== FILE: participants.dfy ===
/** Room participants and roster snapshots, as the LiveKit room exposes
    them to the agent. */
module Participants {
  import opened Common

  type Identity = string

  /** Participant attributes: key to value, keys unique, order irrelevant. */
  type Attributes = map<string, string>

  /** A remote participant of a room: its stable identity, display name and
      attributes (`sip.from`, `sip.to`, `sip.callStatus`, ...). */
  datatype Participant = Participant(identity: Identity, name: string, attributes: Attributes)

  /** One snapshot of `room.remote_participants`: the dictionary's values in
      its iteration order. The dictionary is keyed by identity. */
  type Roster = seq<Participant>

  /** `identity in room.remote_participants`. */
  predicate Present(roster: Roster, identity: Identity) {
    exists i :: 0 <= i < |roster| && roster[i].identity == identity
  }

  /** A roster as the dictionary produces it: no identity twice. */
  predicate WellFormed(roster: Roster) {
    forall i, j :: 0 <= i < j < |roster| ==> roster[i].identity != roster[j].identity
  }

  /** `room.remote_participants.get(identity)`: the participant listed
      under that identity, if any. */
  function Lookup(roster: Roster, identity: Identity): (r: Option<Participant>)
    ensures r.Some? <==> Present(roster, identity)
    ensures r.Some? ==> r.value.identity == identity && r.value in roster
    ensures r.Some? && WellFormed(roster) ==>
              forall i :: 0 <= i < |roster| && roster[i].identity == identity ==> roster[i] == r.value
    decreases |roster|
  {
    if |roster| == 0 then None
    else if roster[0].identity == identity then Some(roster[0])
    else
      var r := Lookup(roster[1..], identity);
      assert Present(roster, identity) ==> Present(roster[1..], identity) by {
        if Present(roster, identity) {
          var i :| 0 <= i < |roster| && roster[i].identity == identity;
          assert roster[1..][i - 1].identity == identity;
        }
      }
      assert r.Some? ==> Present(roster, identity) by {
        if r.Some? {
          var i :| 0 <= i < |roster[1..]| && roster[1..][i].identity == identity;
          assert roster[i + 1].identity == identity;
        }
      }
      r
  }

  /** The value of one attribute of a participant, if set. */
  function Attribute(p: Participant, key: string): Option<string> {
    Get(p.attributes, key)
  }
}

=== FILE: routes.dfy ===
/** The pure parts of the HTTP routes: the Twilio environment check, the
    inbound trunk setup request, the inbound readiness summary, and the TwiML
    documents that route Twilio calls to LiveKit's SIP endpoint. */
module Routes {
  import opened Common
  import opened Strings
  import TrunkSetup

  const SipHostVar := "LIVEKIT_SIP_HOST"
  const UrlVar := "LIVEKIT_URL"
  const SidVar := "TWILIO_ACCOUNT_SID"
  const TokenVar := "TWILIO_AUTH_TOKEN"
  const RuleIdVar := "DISPATCH_RULE_ID"

  /** LiveKit Cloud's SIP domain, appended to the project id. */
  const SipDomainSuffix := ".sip.livekit.cloud"
  const PlaceholderPhone := "your_phone_number"
  const PlaceholderSipHost := "your-project-id.sip.livekit.cloud"
  const DefaultSipUser := "livekit_user"
  const DefaultSipPassword := "s3cur3p@ssw0rd"

  // ---------------------------------------------------------------------
  // `/api/twilio/test`

  /** The JSON summary of the Twilio variables. */
  datatype TwilioCheck = TwilioCheck(
    sidPresent: bool, tokenPresent: bool, phonePresent: bool,
    sidPrefix: Option<string>, allPresent: bool)

  /** `s[:n]`. */
  function Take(s: string, n: nat): (r: string)
    ensures |r| == if n < |s| then n else |s|
    ensures StartsWith(s, r)
  {
    if n < |s| then s[..n] else s
  }

  /** `test_twilio_env`: each variable is reported present when it is set and
      non-empty; the account SID is shown as its first four characters (or
      fewer) followed by `...`; all three must be present. */
  function TestTwilioEnv(env: Environment): (c: TwilioCheck)
    ensures c.sidPresent == Truthy(Get(env, SidVar))
    ensures c.tokenPresent == Truthy(Get(env, TokenVar))
    ensures c.phonePresent == Truthy(Get(env, PhoneVar))
    ensures c.allPresent <==> c.sidPresent && c.tokenPresent && c.phonePresent
    ensures c.sidPrefix.Some? <==> c.sidPresent
    ensures c.sidPrefix.Some? ==>
              && EndsWith(c.sidPrefix.value, "...")
              && var shown := c.sidPrefix.value[..|c.sidPrefix.value| - 3];
                 StartsWith(env[SidVar], shown) && |shown| == if |env[SidVar]| < 4 then |env[SidVar]| else 4
  {
    var sid, token, phone := Get(env, SidVar), Get(env, TokenVar), Get(env, PhoneVar);
    var prefix := if Truthy(sid) then Some(Take(sid.value, 4) + "...") else None;
    assert prefix.Some? ==> prefix.value[..|prefix.value| - 3] == Take(sid.value, 4);
    TwilioCheck(Truthy(sid), Truthy(token), Truthy(phone), prefix, Truthy(sid) && Truthy(token) && Truthy(phone))
  }

  // ---------------------------------------------------------------------
  // `/api/inbound/trunk/setup`

  /** The route's answer: 400 without a phone number, the created trunk, or
      500 with the message raised while creating it. */
  datatype TrunkSetupReply = PhoneMissing | TrunkCreated(trunkId: string, phone: string) | TrunkFailed(error: string)

  /** `data.get("phone_number", os.environ.get("TWILIO_PHONE_NUMBER"))`: the
      body's value when the key is there (JSON `null` is `None`), else the
      environment's. An absent body counts as `{}`. */
  function RequestedPhone(body: map<string, Option<string>>, env: Environment): (phone: Option<string>)
    ensures "phone_number" in body ==> phone == body["phone_number"]
    ensures "phone_number" !in body ==> phone == Get(env, PhoneVar)
  {
    if "phone_number" in body then body["phone_number"] else Get(env, PhoneVar)
  }

  /** The configuration file the route writes for the setup script. */
  function RouteTrunkConfig(phone: string): TrunkSetup.TrunkSource {
    TrunkSetup.ConfigFile(Some(TrunkSetup.FieldsForPhone(phone)))
  }

  /** `setup_inbound_trunk`: a missing or empty phone number is rejected with
      400 before anything is written; otherwise the script runs on the written
      configuration and `created` is what it returned or raised. */
  function SetupInboundTrunk(body: map<string, Option<string>>, env: Environment, created: Result<string, string>): (r: TrunkSetupReply)
    ensures r.PhoneMissing? <==> !Truthy(RequestedPhone(body, env))
    ensures r.TrunkCreated? <==> Truthy(RequestedPhone(body, env)) && created.Ok?
    ensures r.TrunkCreated? ==> r.phone == RequestedPhone(body, env).value && r.trunkId == created.value
    ensures r.TrunkFailed? ==> created == Err(r.error)
  {
    var phone := RequestedPhone(body, env);
    if !Truthy(phone) then PhoneMissing
    else match created
      case Ok(id) => TrunkCreated(id, phone.value)
      case Err(e) => TrunkFailed(e)
  }

  /** The configuration the route writes makes the script request a trunk
      named `"Inbound SIP Trunk"` for exactly that number, with Krisp on. */
  lemma RouteConfigRequestsTrunk(phone: string)
    ensures TrunkSetup.TrunkRequest(RouteTrunkConfig(phone)) ==
              TrunkSetup.TrunkInfo(TrunkSetup.DefaultTrunkName, [phone], true)
  {
  }

  // ---------------------------------------------------------------------
  // `/api/inbound/status`

  /** What a LiveKit listing returned: its items, or an exception. */
  datatype Listing<T> = Listed(items: seq<T>) | ListRaised

  datatype SipTrunk = SipTrunk(numbers: seq<string>)
  datatype DispatchRule = DispatchRule(name: string)

  /** What LiveKit answers to the status route: the client error raised when
      it cannot be created, the trunk and rule listings for the configured
      ids, and whether creating the test dispatch and deleting the test room
      each succeeded. */
  datatype StatusProbe = StatusProbe(
    clientError: Option<string>,
    trunks: Listing<SipTrunk>, rules: Listing<DispatchRule>,
    dispatchCreated: bool, testRoomDeleted: bool)

  datatype InboundStatus = InboundStatus(
    trunkId: Option<string>, trunk: Option<SipTrunk>,
    ruleId: Option<string>, rule: Option<DispatchRule>,
    agentAvailable: bool, readyForCalls: bool)

  /** The first listed item, looked up only when an id is configured; a
      listing that raises counts as nothing found. */
  function FirstListed<T>(id: Option<string>, listing: Listing<T>): (r: Option<T>)
    ensures r.Some? <==> Truthy(id) && listing.Listed? && |listing.items| > 0
    ensures r.Some? ==> r.value == listing.items[0]
  {
    if Truthy(id) && listing.Listed? && |listing.items| > 0 then Some(listing.items[0]) else None
  }

  /** `check_inbound_setup`: ready for calls exactly when the configured trunk
      and dispatch rule were both found and the agent answered a test
      dispatch whose room could then be deleted. */
  function CheckInboundSetup(env: Environment, probe: StatusProbe): (r: Result<InboundStatus, string>)
    ensures r.Err? <==> probe.clientError.Some?
    ensures r.Ok? ==> (r.value.readyForCalls <==> r.value.trunk.Some? && r.value.rule.Some? && r.value.agentAvailable)
    ensures r.Ok? ==> (r.value.trunk.Some? <==> Truthy(Get(env, TrunkIdVar)) && probe.trunks.Listed? && |probe.trunks.items| > 0)
    ensures r.Ok? ==> (r.value.rule.Some? <==> Truthy(Get(env, RuleIdVar)) && probe.rules.Listed? && |probe.rules.items| > 0)
    ensures r.Ok? ==> (r.value.agentAvailable <==> probe.dispatchCreated && probe.testRoomDeleted)
  {
    if probe.clientError.Some? then Err(probe.clientError.value)
    else
      var trunkId, ruleId := Get(env, TrunkIdVar), Get(env, RuleIdVar);
      var trunk, rule := FirstListed(trunkId, probe.trunks), FirstListed(ruleId, probe.rules);
      var agent := probe.dispatchCreated && probe.testRoomDeleted;
      Ok(InboundStatus(trunkId, trunk, ruleId, rule, agent, trunk.Some? && rule.Some? && agent))
  }

  /** The summary is never ready for calls without a configured trunk id, a
      configured dispatch rule id, a created test dispatch and a deleted test
      room; and whenever it is ready, both listings returned an item. */
  lemma NotReadyWithoutSetup(env: Environment, probe: StatusProbe)
    ensures var r := CheckInboundSetup(env, probe);
            && (r.Ok? && r.value.readyForCalls ==>
                  && Truthy(Get(env, TrunkIdVar)) && Truthy(Get(env, RuleIdVar))
                  && probe.dispatchCreated && probe.testRoomDeleted)
            && (r.Ok? && r.value.readyForCalls ==>
                  && probe.trunks.Listed? && |probe.trunks.items| > 0
                  && probe.rules.Listed? && |probe.rules.items| > 0
                  && r.value.trunk == Some(probe.trunks.items[0])
                  && r.value.rule == Some(probe.rules.items[0]))
  {
  }

  // ---------------------------------------------------------------------
  // The SIP host and the TwiML documents

  /** The LiveKit URL without its `wss://` and `ws://` markers. */
  function StripScheme(url: string): string {
    ReplaceAll(ReplaceAll(url, "wss://", ""), "ws://", "")
  }

  /** `wss://project-id.livekit.cloud` gives `project-id.sip.livekit.cloud`:
      the text before the first `.` of the stripped URL, followed by LiveKit's
      SIP domain; nothing when the stripped URL has no `.`. */
  function DeriveSipHost(url: string): (r: Option<string>)
    ensures r.None? <==> '.' !in StripScheme(url)
    ensures r.Some? ==>
              && EndsWith(r.value, SipDomainSuffix)
              && var project := r.value[..|r.value| - |SipDomainSuffix|];
                 && '.' !in project
                 && StartsWith(StripScheme(url), project + ".")
  {
    var stripped := StripScheme(url);
    if '.' in stripped then
      var project := Split(stripped, '.')[0];
      var host := project + SipDomainSuffix;
      assert host[..|host| - |SipDomainSuffix|] == project;
      assert stripped[..|project| + 1] == stripped[..|project|] + [stripped[|project|]];
      Some(host)
    else None
  }

  /** The SIP host both TwiML routes compute: `LIVEKIT_SIP_HOST` when it is
      set and non-empty; otherwise the host derived from a non-empty
      `LIVEKIT_URL`; otherwise the unset or empty `LIVEKIT_SIP_HOST` as it
      was. */
  function SipHost(env: Environment): (r: Option<string>)
    ensures Truthy(Get(env, SipHostVar)) ==> r == Get(env, SipHostVar)
    ensures !Truthy(Get(env, UrlVar)) ==> r == Get(env, SipHostVar)
    ensures r != Get(env, SipHostVar) ==>
              && !Truthy(Get(env, SipHostVar))
              && UrlVar in env && r == DeriveSipHost(env[UrlVar])
              && r.Some? && EndsWith(r.value, SipDomainSuffix)
    ensures !Truthy(Get(env, SipHostVar)) && Truthy(Get(env, UrlVar)) ==>
              r == (if DeriveSipHost(env[UrlVar]).Some? then DeriveSipHost(env[UrlVar]) else Get(env, SipHostVar))
  {
    var configured := Get(env, SipHostVar);
    if Truthy(configured) then configured
    else
      var url := Get(env, UrlVar);
      if Truthy(url) && DeriveSipHost(url.value).Some? then DeriveSipHost(url.value)
      else configured
  }

  /** A LiveKit Cloud URL `wss://<project>.<domain>` gives the SIP host of
      that project, whatever follows the project (a port, a path), as long
      as no further scheme marker occurs after `wss://`. */
  lemma {:induction false} CloudUrlGivesProjectHost(project: string, domain: string)
    requires '.' !in project
    requires !Contains(project + "." + domain, "wss://") && !Contains(project + "." + domain, "ws://")
    ensures DeriveSipHost("wss://" + project + "." + domain) == Some(project + SipDomainSuffix)
  {
    var rest := project + "." + domain;
    assert "wss://" + project + "." + domain == "wss://" + rest;
    ReplaceLeading("wss://", rest, "");
    assert "" + rest == rest;
    assert StripScheme("wss://" + rest) == rest;
    assert rest == project + ['.'] + domain;
    SplitAfterPiece(project, '.', domain);
    assert rest[|project|] == '.';
  }

  /** Without a configured SIP host, a LiveKit Cloud URL in the environment
      makes both TwiML routes dial the SIP host of that project. */
  lemma CloudUrlSipHost(env: Environment, project: string, domain: string)
    requires !Truthy(Get(env, SipHostVar))
    requires UrlVar in env && env[UrlVar] == "wss://" + project + "." + domain
    requires '.' !in project
    requires !Contains(project + "." + domain, "wss://") && !Contains(project + "." + domain, "ws://")
    ensures SipHost(env) == Some(project + SipDomainSuffix)
  {
    CloudUrlGivesProjectHost(project, domain);
  }

  /** The example in the route's comment: `wss://project-id.livekit.cloud` gives
      `project-id.sip.livekit.cloud`. The strings are parameters fixed by the
      preconditions so that the solver does not unfold the functions on
      literal text. */
  lemma ProjectIdHost(url: string, project: string, domain: string)
    requires url == "wss://project-id.livekit.cloud"
    requires project == "project-id" && domain == "livekit.cloud"
    ensures DeriveSipHost(url) == Some("project-id.sip.livekit.cloud")
  {
    ProjectIdUrl(url, project, domain);
    ProjectIdSuffix(project);
    var rest := project + "." + domain;
    ContainedCharsOccur(rest, "wss://", 3);
    ContainedCharsOccur(rest, "ws://", 2);
    assert "wss://"[3] == ':' && "ws://"[2] == ':';
    CloudUrlGivesProjectHost(project, domain);
  }

  /** How the example URL splits into a project and a domain (parameters
      fixed by the preconditions, as above). */
  lemma ProjectIdUrl(url: string, project: string, domain: string)
    requires url == "wss://project-id.livekit.cloud"
    requires project == "project-id" && domain == "livekit.cloud"
    ensures url == "wss://" + project + "." + domain
    ensures '.' !in project && ':' !in project + "." + domain
  {
  }

  /** The example's expected SIP host (a parameter fixed by the
      precondition, as above). */
  lemma ProjectIdSuffix(project: string)
    requires project == "project-id"
    ensures project + SipDomainSuffix == "project-id.sip.livekit.cloud"
  {
  }

  /** The number dialled in the TwiML: `TWILIO_PHONE_NUMBER`, or a placeholder
      when unset. */
  function TwimlPhone(env: Environment): string {
    GetOr(env, PhoneVar, PlaceholderPhone)
  }

  /** `sip:{phone}@{host};transport=tcp`, with an absent host rendered as
      Python renders `None`. */
  function SipUri(phone: string, host: Option<string>): (uri: string)
    ensures StartsWith(uri, "sip:" + phone + "@")
    ensures EndsWith(uri, ";transport=tcp")
    ensures |uri| == |"sip:" + phone + "@"| + |Render(host)| + |";transport=tcp"|
    ensures uri[|"sip:" + phone + "@"|..|uri| - |";transport=tcp"|] == Render(host)
  {
    var uri := "sip:" + phone + "@" + Render(host) + ";transport=tcp";
    assert uri[..|"sip:" + phone + "@"|] == "sip:" + phone + "@";
    uri
  }

  /** The TwiML document that dials a SIP URI with the given credentials. */
  function TwimlDocument(username: string, password: string, uri: string): (doc: string)
    ensures Contains(doc, uri)
  {
    var head := "<?xml version=\"1.0\" encoding=\"UTF-8\"?>\n<Response>\n  <Dial>\n    <Sip username=\""
      + username + "\" password=\"" + password + "\">\n      ";
    var tail := "\n    </Sip>\n  </Dial>\n</Response>";
    assert Contains(uri, uri) by { assert StartsWith(uri, uri); }
    ContainsAfterPrefix(head, uri, uri);
    ContainsBeforeSuffix(head + uri, tail, uri);
    head + uri + tail
  }

  /** The JSON answer of `/api/twilio/twiml`. */
  datatype TwimlReply = TwimlReply(twiml: string, sipHost: Option<string>, phone: string)

  /** `/api/twilio/twiml`: the SIP credentials come from the query string,
      with defaults. */
  function GetTwiml(env: Environment, args: map<string, string>): (r: TwimlReply)
    ensures r.sipHost == SipHost(env)
    ensures r.phone == TwimlPhone(env)
    ensures Contains(r.twiml, SipUri(TwimlPhone(env), SipHost(env)))
  {
    var username := GetOr(args, "username", DefaultSipUser);
    var password := GetOr(args, "password", DefaultSipPassword);
    var host := SipHost(env);
    var phone := TwimlPhone(env);
    TwimlReply(TwimlDocument(username, password, SipUri(phone, host)), host, phone)
  }

  /** `/twiml`: the XML body, with fixed credentials. */
  function TwimlEndpoint(env: Environment): (doc: string)
    ensures Contains(doc, SipUri(TwimlPhone(env), SipHost(env)))
  {
    TwimlDocument(DefaultSipUser, DefaultSipPassword, SipUri(TwimlPhone(env), SipHost(env)))
  }

  /** `/api/twilio/setup`: the host is `LIVEKIT_SIP_HOST` or a placeholder,
      never derived from the URL. */
  function SetupTwilioTwiml(env: Environment): (doc: string)
    ensures Contains(doc, SipUri(TwimlPhone(env), Some(GetOr(env, SipHostVar, PlaceholderSipHost))))
  {
    TwimlDocument(DefaultSipUser, DefaultSipPassword,
                  SipUri(TwimlPhone(env), Some(GetOr(env, SipHostVar, PlaceholderSipHost))))
  }

  /** Both TwiML routes dial the same SIP host, and without query parameters
      they return the same document. */
  lemma TwimlRoutesAgree(env: Environment, args: map<string, string>)
    ensures GetTwiml(env, args).sipHost == SipHost(env)
    ensures GetTwiml(env, map[]).twiml == TwimlEndpoint(env)
  {
  }

  /** With a non-empty `LIVEKIT_SIP_HOST`, the setup instructions show the same
      document as `/twiml`. */
  lemma SetupTwimlMatchesWhenHostSet(env: Environment)
    requires Truthy(Get(env, SipHostVar))
    ensures SetupTwilioTwiml(env) == TwimlEndpoint(env)
  {
  }

  /** Without any host configuration, `/twiml` dials the literal host
      `None`. */
  lemma UnconfiguredHostRendersNone(env: Environment)
    requires SipHostVar !in env && UrlVar !in env
    ensures TwimlEndpoint(env) == TwimlDocument(DefaultSipUser, DefaultSipPassword,
                                                "sip:" + TwimlPhone(env) + "@None;transport=tcp")
  {
    assert SipHost(env) == None;
    NoneHostUri(TwimlPhone(env));
  }

  /** The URI for an absent host, written out. */
  lemma NoneHostUri(phone: string)
    ensures SipUri(phone, None) == "sip:" + phone + "@None;transport=tcp"
  {
    assert "@None;transport=tcp" == "@" + "None" + ";transport=tcp";
    assert SipUri(phone, None) == "sip:" + phone + "@" + "None" + ";transport=tcp";
    assert "sip:" + phone + "@" + "None" + ";transport=tcp" == "sip:" + phone + "@None;transport=tcp";
  }
}

=== FILE: simulate_call.dfy ===
/** The inbound-call simulator script: it normalises a phone number, asks
    LiveKit to attach a SIP participant that looks like an inbound caller, and
    watches the test room for up to a minute. */
module SimulateCall {
  import opened Common
  import opened Strings
  import opened Participants
  import InboundHandler
  import AgentMain

  const DefaultPhone := "+15105551234"
  const CallerPrefix := "sim_caller_"
  /** The room is checked at most this many times, every 5 seconds. */
  const WatchRounds := 12

  // ---------------------------------------------------------------------
  // The phone number

  /** The number used: the argument when it is non-empty, else the Twilio
      number from the environment, else the built-in default. */
  function ChoosePhone(arg: Option<string>, env: Environment): (phone: string)
    ensures Truthy(arg) ==> phone == arg.value
    ensures !Truthy(arg) && PhoneVar in env ==> phone == env[PhoneVar]
    ensures !Truthy(arg) && PhoneVar !in env ==> phone == DefaultPhone
  {
    if Truthy(arg) then arg.value else GetOr(env, PhoneVar, DefaultPhone)
  }

  /** `c.isdigit()`, restricted to ASCII digits. */
  predicate IsDigit(c: char) {
    '0' <= c <= '9'
  }

  /** The characters the normalisation keeps. */
  predicate IsDialChar(c: char) {
    IsDigit(c) || c == '+'
  }

  /** The digits of a string, in order. */
  function Digits(s: string): string
    decreases |s|
  {
    if |s| == 0 then ""
    else (if IsDigit(s[0]) then [s[0]] else "") + Digits(s[1..])
  }

  /** The number of `+` signs in a string. */
  function Pluses(s: string): nat
    decreases |s|
  {
    if |s| == 0 then 0
    else (if s[0] == '+' then 1 else 0) + Pluses(s[1..])
  }

  /** `''.join(c for c in s if c.isdigit() or c == '+')`. */
  function KeepDialChars(s: string): (r: string)
    ensures |r| <= |s|
    ensures forall i :: 0 <= i < |r| ==> IsDialChar(r[i])
    ensures Pluses(r) == Pluses(s)
    decreases |s|
  {
    if |s| == 0 then ""
    else
      var rest := KeepDialChars(s[1..]);
      var r := (if IsDialChar(s[0]) then [s[0]] else "") + rest;
      assert IsDialChar(s[0]) ==> r[0] == s[0] && r[1..] == rest;
      assert !IsDialChar(s[0]) ==> r == rest && s[0] != '+';
      r
  }

  /** The filter keeps a single character iff it is a digit or `+`. */
  lemma KeepDialCharsSingle(c: char)
    ensures KeepDialChars([c]) == if IsDialChar(c) then [c] else ""
  {
    assert [c][1..] == "";
  }

  /** The filter on a non-empty string: its first character, if kept, then
      the filtered rest. */
  lemma KeepDialCharsCons(s: string)
    requires |s| > 0
    ensures KeepDialChars(s) == (if IsDialChar(s[0]) then [s[0]] else "") + KeepDialChars(s[1..])
  {
  }

  /** Filtering a concatenation concatenates the filtered parts, so the kept
      characters stay in their order. */
  lemma {:induction false} KeepDialCharsAppend(a: string, b: string)
    ensures KeepDialChars(a + b) == KeepDialChars(a) + KeepDialChars(b)
    decreases |a|
  {
    if |a| == 0 {
      assert a + b == b;
    } else {
      var head := if IsDialChar(a[0]) then [a[0]] else "";
      var ab := a + b;
      assert ab[0] == a[0] && ab[1..] == a[1..] + b;
      KeepDialCharsCons(ab);
      KeepDialCharsCons(a);
      KeepDialCharsAppend(a[1..], b);
      calc {
        KeepDialChars(ab);
        head + KeepDialChars(a[1..] + b);
        head + (KeepDialChars(a[1..]) + KeepDialChars(b));
        { ConcatAssoc(head, KeepDialChars(a[1..]), KeepDialChars(b)); }
        (head + KeepDialChars(a[1..])) + KeepDialChars(b);
        KeepDialChars(a) + KeepDialChars(b);
      }
    }
  }

  /** Filtering keeps every digit, in order. */
  lemma {:induction false} KeepDialCharsKeepsDigits(s: string)
    ensures Digits(KeepDialChars(s)) == Digits(s)
    decreases |s|
  {
    if |s| > 0 {
      KeepDialCharsKeepsDigits(s[1..]);
      var rest := KeepDialChars(s[1..]);
      if IsDialChar(s[0]) {
        assert KeepDialChars(s) == [s[0]] + rest;
        assert ([s[0]] + rest)[1..] == rest;
        assert Digits([s[0]] + rest) == (if IsDigit(s[0]) then [s[0]] else "") + Digits(rest);
      } else {
        assert KeepDialChars(s) == rest;
        assert !IsDigit(s[0]);
      }
    }
  }

  /** A string of dial characters is left as it is. */
  lemma {:induction false} KeepDialCharsFixes(s: string)
    requires forall i :: 0 <= i < |s| ==> IsDialChar(s[i])
    ensures KeepDialChars(s) == s
    decreases |s|
  {
    if |s| > 0 {
      KeepDialCharsFixes(s[1..]);
      assert [s[0]] + s[1..] == s;
    }
  }

  /** The number as the script formats it: a `+` is put in front unless there
      is one, then everything but digits and `+` is removed. */
  function Normalize(s: string): (r: string)
    ensures |r| > 0 && r[0] == '+'
    ensures forall i :: 0 <= i < |r| ==> IsDialChar(r[i])
    ensures Digits(r) == Digits(s)
    ensures Pluses(r) == Pluses(s) + (if StartsWith(s, "+") then 0 else 1)
    ensures StartsWith(s, "+") ==> r == KeepDialChars(s)
    ensures !StartsWith(s, "+") ==> r == "+" + KeepDialChars(s)
    ensures |r| <= |s| + 1
  {
    var prefixed := if StartsWith(s, "+") then s else "+" + s;
    assert prefixed[0] == '+';
    assert !StartsWith(s, "+") ==> prefixed[1..] == s;
    assert Digits(prefixed) == Digits(s) by {
      if !StartsWith(s, "+") {
        assert prefixed[1..] == s;
      }
    }
    KeepDialCharsKeepsDigits(prefixed);
    KeepDialChars(prefixed)
  }

  /** Normalising a normalised number changes nothing. */
  lemma NormalizeIdempotent(s: string)
    ensures Normalize(Normalize(s)) == Normalize(s)
  {
    var r := Normalize(s);
    assert StartsWith(r, "+");
    KeepDialCharsFixes(r);
  }

  // ---------------------------------------------------------------------
  // The simulated caller

  /** The `CreateSIPParticipantRequest` sent to LiveKit. */
  datatype SipParticipantRequest = SipParticipantRequest(
    roomName: string, trunkId: string, identity: Identity, name: string, metadata: string, attributes: Attributes)

  function CallerRequest(roomName: string, trunkId: string, phone: string, env: Environment): SipParticipantRequest {
    SipParticipantRequest(
      roomName, trunkId,
      CallerPrefix + phone,
      "Simulated Inbound Call " + phone,
      "Simulated inbound call from " + phone,
      map[InboundHandler.FromKey := phone,
          InboundHandler.ToKey := GetOr(env, PhoneVar, DefaultPhone),
          InboundHandler.CallStatusKey := "active"])
  }

  /** The participant the request puts in the room. */
  function Joined(request: SipParticipantRequest): Participant {
    Participant(request.identity, request.name, request.attributes)
  }

  /** The simulated caller is recognised as a SIP caller by both the handler
      and the entrypoint, its call details are the simulated number and the
      Twilio number, and a monitor does not stop while it stays active. */
  lemma SimulatedCallerIsSip(roomName: string, trunkId: string, phone: string, env: Environment, rest: seq<InboundHandler.Observation>)
    ensures var p := Joined(CallerRequest(roomName, trunkId, phone, env));
            && p.identity == CallerPrefix + phone
            && InboundHandler.IsSipParticipant(p)
            && AgentMain.MentionsSip(p)
            && InboundHandler.Details(p) == InboundHandler.CallDetails(phone, GetOr(env, PhoneVar, DefaultPhone))
            && InboundHandler.Monitor(p, [InboundHandler.Snapshot([p])] + rest) == InboundHandler.Later(InboundHandler.Monitor(p, rest))
  {
    var p := Joined(CallerRequest(roomName, trunkId, phone, env));
    assert InboundHandler.CallStatusKey in p.attributes;
    AgentMain.SipParticipantMentionsSip(p);
    assert p.attributes[InboundHandler.CallStatusKey] == "active";
    assert ([InboundHandler.Snapshot([p])] + rest)[1..] == rest;
  }

  // ---------------------------------------------------------------------
  // The run

  /** What one room listing returned. */
  datatype RoomCheck = RoomListed(participants: nat) | RoomMissing | ListRaised(error: string)

  /** How the watch ended: the room disappeared, the twelve rounds ran out,
      or a listing raised (which is logged). */
  datatype WatchEnd = RoomGone | TimeUp | WatchFailed(error: string)

  /** What the watch promises when round `i` sees `checks(i)`: between one
      and twelve rounds, every round but the last saw the room, and the last
      one decides how the watch ended. */
  ghost predicate WatchSpec(checks: nat -> RoomCheck, rounds: nat, end: WatchEnd) {
    && 1 <= rounds <= WatchRounds
    && (forall j :: 0 <= j < rounds - 1 ==> checks(j).RoomListed?)
    && (end == TimeUp <==> rounds == WatchRounds && checks(rounds - 1).RoomListed?)
    && (end == RoomGone <==> checks(rounds - 1) == RoomMissing)
    && (end.WatchFailed? <==> checks(rounds - 1).ListRaised?)
    && (end.WatchFailed? ==> end.error == checks(rounds - 1).error)
  }

  /** `for i in range(12)`: wait 5 s, list the room, stop when it is gone. */
  method WatchRoom(checks: nat -> RoomCheck) returns (rounds: nat, end: WatchEnd)
    ensures WatchSpec(checks, rounds, end)
  {
    rounds := 0;
    while rounds < WatchRounds
      invariant rounds <= WatchRounds
      invariant forall j :: 0 <= j < rounds ==> checks(j).RoomListed?
    {
      var c := checks(rounds);
      rounds := rounds + 1;
      match c
      case RoomMissing =>
        return rounds, RoomGone;
      case ListRaised(e) =>
        return rounds, WatchFailed(e);
      case RoomListed(_) =>
    }
    end := TimeUp;
  }

  /** The outcome of a simulation: stopped for lack of a trunk id before any
      request, the request raised (logged), or the room was watched. */
  datatype SimOutcome =
    | NoTrunk(phone: string)
    | CreateFailed(phone: string, request: SipParticipantRequest, error: string)
    | Watched(phone: string, request: SipParticipantRequest, rounds: nat, end: WatchEnd)

  /** The test rooms are named `test-inbound-<token>`. */
  const TestRoomPrefix := "test-inbound-"

  /** `simulate_inbound_call`: `token` is the random hex token of the room
      name, `createError` the message raised by the request, if any. Nothing
      is raised to the caller. */
  method Simulate(arg: Option<string>, env: Environment, token: string, createError: Option<string>, checks: nat -> RoomCheck)
    returns (o: SimOutcome)
    ensures o.phone == Normalize(ChoosePhone(arg, env))
    ensures o.NoTrunk? <==> !Truthy(Get(env, TrunkIdVar))
    ensures !o.NoTrunk? ==> o.request == CallerRequest(TestRoomPrefix + token, env[TrunkIdVar], o.phone, env)
    ensures !o.NoTrunk? ==> StartsWith(o.request.roomName, TestRoomPrefix)
    ensures o.CreateFailed? <==> Truthy(Get(env, TrunkIdVar)) && createError.Some?
    ensures o.Watched? <==> Truthy(Get(env, TrunkIdVar)) && createError.None?
    ensures o.Watched? ==> WatchSpec(checks, o.rounds, o.end)
  {
    var phone := Normalize(ChoosePhone(arg, env));
    var roomName := TestRoomPrefix + token;
    assert roomName[..|TestRoomPrefix|] == TestRoomPrefix;
    var trunkId := Get(env, TrunkIdVar);
    if !Truthy(trunkId) {
      o := NoTrunk(phone);
    } else {
      var request := CallerRequest(roomName, trunkId.value, phone, env);
      if createError.Some? {
        o := CreateFailed(phone, request, createError.value);
      } else {
        var rounds, end := WatchRoom(checks);
        o := Watched(phone, request, rounds, end);
      }
    }
  }
}

=== FILE: strings.dfy ===
/** The handful of Python `str` operations the modelled code relies on,
    with Python's semantics: `startswith`, `endswith`, `in`, `replace`,
    `split` on a one-character separator, and `join`. */
module Strings {

  /** `s.startswith(p)`. */
  predicate StartsWith(s: string, p: string) {
    |p| <= |s| && s[..|p|] == p
  }

  /** `s.endswith(q)`. */
  predicate EndsWith(s: string, q: string) {
    |q| <= |s| && s[|s| - |q|..] == q
  }

  /** `w in s` for two strings: `w` occurs somewhere in `s` (the empty
      string occurs everywhere). */
  predicate Contains(s: string, w: string)
    decreases |s|
  {
    StartsWith(s, w) || (|s| > 0 && Contains(s[1..], w))
  }

  /** `s.replace(pat, rep)`: a left-to-right scan that replaces every
      non-overlapping occurrence of `pat`. */
  function ReplaceAll(s: string, pat: string, rep: string): (r: string)
    requires |pat| > 0
    ensures !Contains(s, pat) ==> r == s
    decreases |s|
  {
    if StartsWith(s, pat) then rep + ReplaceAll(s[|pat|..], pat, rep)
    else if |s| == 0 then ""
    else
      var tail := ReplaceAll(s[1..], pat, rep);
      assert !Contains(s, pat) ==> tail == s[1..];
      [s[0]] + tail
  }

  /** Every character of a string that occurs in `s` is a character of `s`. */
  lemma {:induction false} ContainedCharsOccur(s: string, w: string, i: nat)
    requires i < |w|
    ensures Contains(s, w) ==> w[i] in s
    decreases |s|
  {
    if |s| > 0 {
      ContainedCharsOccur(s[1..], w, i);
      assert StartsWith(s, w) ==> s[i] == w[i];
      assert w[i] in s[1..] ==> w[i] in s;
    }
  }

  /** A string that opens with `pat` and never contains it afterwards has
      exactly that one occurrence replaced. */
  lemma ReplaceLeading(pat: string, rest: string, rep: string)
    requires |pat| > 0 && !Contains(rest, pat)
    ensures ReplaceAll(pat + rest, pat, rep) == rep + rest
  {
    assert (pat + rest)[..|pat|] == pat;
    assert (pat + rest)[|pat|..] == rest;
  }

  /** Text before the first occurrence that cannot reach into it: if `a`
      followed by all but the last character of `pat` does not contain
      `pat`, then `a + pat + b` does not start with `pat` when `a` is
      non-empty. */
  lemma NoStartBefore(a: string, pat: string, b: string)
    requires |a| > 0 && |pat| > 0
    requires !Contains(a + pat[..|pat| - 1], pat)
    ensures !StartsWith(a + pat + b, pat)
  {
    var x, s := a + pat[..|pat| - 1], a + pat + b;
    assert |x| >= |pat|;
    assert x[..|pat|] == s[..|pat|];
    assert !StartsWith(x, pat);
  }

  /** `replace` copies the text before the first occurrence of `pat`,
      replaces that occurrence, and carries on after it. */
  lemma {:induction false} ReplaceFirstOccurrence(a: string, pat: string, b: string, rep: string)
    requires |pat| > 0
    requires !Contains(a + pat[..|pat| - 1], pat)
    ensures ReplaceAll(a + pat + b, pat, rep) == a + rep + ReplaceAll(b, pat, rep)
    decreases |a|
  {
    var s := a + pat + b;
    if |a| == 0 {
      assert s == pat + b;
      assert s[..|pat|] == pat && s[|pat|..] == b;
    } else {
      NoStartBefore(a, pat, b);
      var x := a + pat[..|pat| - 1];
      assert x[1..] == a[1..] + pat[..|pat| - 1];
      assert s[1..] == a[1..] + pat + b;
      ReplaceFirstOccurrence(a[1..], pat, b, rep);
      var head, tail := [a[0]], ReplaceAll(b, pat, rep);
      calc {
        ReplaceAll(s, pat, rep);
        head + ReplaceAll(s[1..], pat, rep);
        head + ((a[1..] + rep) + tail);
        { ConcatAssoc(head, a[1..] + rep, tail); }
        (head + (a[1..] + rep)) + tail;
        { ConcatAssoc(head, a[1..], rep); assert head + a[1..] == a; }
        a + rep + tail;
      }
    }
  }

  /** `s.split(sep)` for a one-character separator: the maximal pieces
      between separators, always at least one (possibly empty) piece. */
  function Split(s: string, sep: char): (pieces: seq<string>)
    ensures |pieces| > 0
    ensures forall i :: 0 <= i < |pieces| ==> sep !in pieces[i]
    ensures StartsWith(s, pieces[0])
    ensures sep in s ==> |pieces[0]| < |s| && s[|pieces[0]|] == sep
    ensures sep !in s ==> pieces == [s]
    decreases |s|
  {
    if |s| == 0 then [""]
    else
      var rest := Split(s[1..], sep);
      if s[0] == sep then [""] + rest
      else
        assert sep !in s ==> [s[0]] + rest[0] == s;
        [[s[0]] + rest[0]] + rest[1..]
  }

  /** `sep.join(pieces)` for a one-character separator. */
  function Join(pieces: seq<string>, sep: char): string
    decreases |pieces|
  {
    if |pieces| == 0 then ""
    else if |pieces| == 1 then pieces[0]
    else pieces[0] + [sep] + Join(pieces[1..], sep)
  }

  /** Joining a piece in front of a non-empty sequence of pieces. */
  lemma JoinCons(x: string, rest: seq<string>, sep: char)
    requires |rest| > 0
    ensures Join([x] + rest, sep) == x + [sep] + Join(rest, sep)
  {
    assert ([x] + rest)[1..] == rest;
  }

  /** Extending the first piece extends the joined text. */
  lemma JoinExtendFirst(c: char, rest: seq<string>, sep: char)
    requires |rest| > 0
    ensures Join([[c] + rest[0]] + rest[1..], sep) == [c] + Join(rest, sep)
  {
    var pieces := [[c] + rest[0]] + rest[1..];
    assert pieces[1..] == rest[1..];
  }

  /** Concatenation is associative. */
  lemma ConcatAssoc(x: string, y: string, z: string)
    ensures x + (y + z) == (x + y) + z
  {
  }

  /** Joining the pieces of a split gives back the original string. */
  lemma {:induction false} JoinSplit(s: string, sep: char)
    ensures Join(Split(s, sep), sep) == s
    decreases |s|
  {
    if |s| > 0 {
      var rest := Split(s[1..], sep);
      JoinSplit(s[1..], sep);
      if s[0] == sep {
        JoinCons("", rest, sep);
      } else {
        JoinExtendFirst(s[0], rest, sep);
      }
      assert [s[0]] + s[1..] == s;
    }
  }

  /** A piece free of separators followed by a separator splits off as one
      piece. */
  lemma {:induction false} SplitAfterPiece(a: string, sep: char, t: string)
    requires sep !in a
    ensures Split(a + [sep] + t, sep) == [a] + Split(t, sep)
    decreases |a|
  {
    var s := a + [sep] + t;
    if |a| == 0 {
      assert s[1..] == t;
    } else {
      assert s[1..] == a[1..] + [sep] + t;
      SplitAfterPiece(a[1..], sep, t);
      assert [a[0]] + a[1..] == a;
    }
  }

  /** Splitting a join of separator-free pieces gives back the pieces. */
  lemma {:induction false} SplitJoin(pieces: seq<string>, sep: char)
    requires |pieces| > 0
    requires forall i :: 0 <= i < |pieces| ==> sep !in pieces[i]
    ensures Split(Join(pieces, sep), sep) == pieces
    decreases |pieces|
  {
    if |pieces| > 1 {
      SplitJoin(pieces[1..], sep);
      SplitAfterPiece(pieces[0], sep, Join(pieces[1..], sep));
      assert [pieces[0]] + pieces[1..] == pieces;
    }
  }

  /** Appending one more piece to a non-empty join adds a separator and the
      piece. */
  lemma {:induction false} JoinAppend(pieces: seq<string>, x: string, sep: char)
    requires |pieces| > 0
    ensures Join(pieces + [x], sep) == Join(pieces, sep) + [sep] + x
    decreases |pieces|
  {
    if |pieces| > 1 {
      assert (pieces + [x])[1..] == pieces[1..] + [x];
      JoinAppend(pieces[1..], x, sep);
    } else {
      assert (pieces + [x])[1..] == [x];
    }
  }

  /** An occurrence survives putting text in front. */
  lemma {:induction false} ContainsAfterPrefix(p: string, s: string, w: string)
    requires Contains(s, w)
    ensures Contains(p + s, w)
    decreases |p|
  {
    if |p| > 0 {
      assert (p + s)[1..] == p[1..] + s;
      ContainsAfterPrefix(p[1..], s, w);
    } else {
      assert p + s == s;
    }
  }

  /** An occurrence survives putting text behind. */
  lemma {:induction false} ContainsBeforeSuffix(s: string, q: string, w: string)
    requires Contains(s, w)
    ensures Contains(s + q, w)
    decreases |s|
  {
    if StartsWith(s, w) {
      assert (s + q)[..|w|] == s[..|w|];
    } else {
      assert (s + q)[1..] == s[1..] + q;
      ContainsBeforeSuffix(s[1..], q, w);
    }
  }

  /** Text that occurs in one piece occurs in the join of the pieces. */
  lemma {:induction false} JoinContains(pieces: seq<string>, i: nat, sep: char, w: string)
    requires i < |pieces|
    requires Contains(pieces[i], w)
    ensures Contains(Join(pieces, sep), w)
    decreases |pieces|
  {
    if |pieces| > 1 {
      var rest := Join(pieces[1..], sep);
      assert Join(pieces, sep) == pieces[0] + ([sep] + rest);
      if i == 0 {
        ContainsBeforeSuffix(pieces[0], [sep] + rest, w);
      } else {
        JoinContains(pieces[1..], i - 1, sep, w);
        ContainsAfterPrefix(pieces[0] + [sep], rest, w);
        assert pieces[0] + [sep] + rest == pieces[0] + ([sep] + rest);
      }
    }
  }
}

=== FILE: trunk_setup.dfy ===
/** The inbound-trunk setup script: it builds the trunk description (from a
    configuration file or from the environment), asks LiveKit to create the
    trunk, and records the new trunk id in the `.env` file. */
module TrunkSetup {
  import opened Common
  import opened Strings

  /** The start of the line that assigns the trunk id. */
  const AssignmentPrefix := TrunkIdVar + "="
  const DefaultTrunkName := "Inbound SIP Trunk"

  // ---------------------------------------------------------------------
  // The trunk description

  /** The `trunk` object of a configuration file; a missing key is `None`. */
  datatype TrunkFields = TrunkFields(name: Option<string>, numbers: Option<seq<string>>, krispEnabled: Option<bool>)

  /** The empty object `{}`. */
  const NoFields := TrunkFields(None, None, None)

  /** The trunk sent to LiveKit (`SIPInboundTrunkInfo`). */
  datatype TrunkInfo = TrunkInfo(name: string, numbers: seq<string>, krispEnabled: bool)

  /** Where the description comes from: an existing configuration file (with
      its `trunk` object, if it has one), or the environment's phone number,
      falling back to the number typed at the prompt. */
  datatype TrunkSource = ConfigFile(trunk: Option<TrunkFields>) | Prompt(envPhone: Option<string>, typed: string)

  /** The description written for one phone number, with Krisp enabled. */
  function FieldsForPhone(phone: string): TrunkFields {
    TrunkFields(Some(DefaultTrunkName), Some([phone]), Some(true))
  }

  /** `trunk_info`: a file without a `trunk` key gives `{}`. */
  function Fields(source: TrunkSource): (f: TrunkFields)
    ensures source == ConfigFile(None) ==> f == NoFields
    ensures source.Prompt? && Truthy(source.envPhone) ==> f == FieldsForPhone(source.envPhone.value)
    ensures source.Prompt? && !Truthy(source.envPhone) ==> f == FieldsForPhone(source.typed)
  {
    match source
    case ConfigFile(trunk) => trunk.GetOr(NoFields)
    case Prompt(envPhone, typed) =>
      FieldsForPhone(if Truthy(envPhone) then envPhone.value else typed)
  }

  /** The trunk request: each missing field takes its default, name
      `"Inbound SIP Trunk"`, no numbers, Krisp enabled. */
  function TrunkRequest(source: TrunkSource): (info: TrunkInfo) {
    var f := Fields(source);
    TrunkInfo(f.name.GetOr(DefaultTrunkName), f.numbers.GetOr([]), f.krispEnabled.GetOr(true))
  }

  /** A file without a `trunk` key, or with an empty one, requests the default
      trunk; each field present in the file is used as given, and each
      missing one takes its default on its own. */
  lemma TrunkDefaults(source: TrunkSource)
    ensures source == ConfigFile(None) || source == ConfigFile(Some(NoFields)) ==>
              TrunkRequest(source) == TrunkInfo(DefaultTrunkName, [], true)
    ensures source.ConfigFile? && source.trunk.Some? && source.trunk.value.name.Some? ==>
              TrunkRequest(source).name == source.trunk.value.name.value
    ensures source.ConfigFile? && source.trunk.Some? && source.trunk.value.numbers.Some? ==>
              TrunkRequest(source).numbers == source.trunk.value.numbers.value
    ensures source.ConfigFile? && source.trunk.Some? && source.trunk.value.krispEnabled.Some? ==>
              TrunkRequest(source).krispEnabled == source.trunk.value.krispEnabled.value
    ensures source.ConfigFile? && (source.trunk.None? || source.trunk.value.name.None?) ==>
              TrunkRequest(source).name == DefaultTrunkName
    ensures source.ConfigFile? && (source.trunk.None? || source.trunk.value.numbers.None?) ==>
              TrunkRequest(source).numbers == []
    ensures source.ConfigFile? && (source.trunk.None? || source.trunk.value.krispEnabled.None?) ==>
              TrunkRequest(source).krispEnabled
  {
  }

  /** Without a file, the trunk is the default one for the environment's
      number, or for the typed number when the environment has none. */
  lemma PromptedTrunk(envPhone: Option<string>, typed: string)
    ensures TrunkRequest(Prompt(envPhone, typed)) ==
              TrunkInfo(DefaultTrunkName, [if Truthy(envPhone) then envPhone.value else typed], true)
  {
  }

  // ---------------------------------------------------------------------
  // Recording the trunk id in `.env`

  /** The assignment line for an id. */
  function Assignment(id: string): string {
    AssignmentPrefix + id
  }

  /** One line of the rewrite: an assignment line is replaced, any other line
      is kept. */
  function RewriteLine(line: string, id: string): string {
    if StartsWith(line, AssignmentPrefix) then Assignment(id) else line
  }

  function RewriteLines(lines: seq<string>, id: string): (r: seq<string>)
    ensures |r| == |lines|
    ensures forall i :: 0 <= i < |lines| ==> r[i] == RewriteLine(lines[i], id)
  {
    seq(|lines|, i requires 0 <= i < |lines| => RewriteLine(lines[i], id))
  }

  /** Some line assigns the trunk id. */
  predicate HasAssignment(lines: seq<string>) {
    exists i :: 0 <= i < |lines| && StartsWith(lines[i], AssignmentPrefix)
  }

  /** The `.env` update as the script writes it: when the file mentions
      `INBOUND_TRUNK_ID` anywhere, every line starting with
      `INBOUND_TRUNK_ID=` is replaced; otherwise the assignment is appended
      after a newline. */
  function UpdateEnv(content: string, id: string): string {
    if Contains(content, TrunkIdVar) then Join(RewriteLines(Split(content, '\n'), id), '\n')
    else content + "\n" + Assignment(id)
  }

  /** The `.env` update as evidently intended: the id is recorded whether or
      not the key is mentioned elsewhere, by replacing the assignment lines if
      there are any and appending one otherwise. */
  function UpdateEnvRecorded(content: string, id: string): string {
    var lines := Split(content, '\n');
    if HasAssignment(lines) then Join(RewriteLines(lines, id), '\n')
    else content + "\n" + Assignment(id)
  }

  /** An assignment line mentions the key. */
  lemma AssignmentMentionsKey(line: string)
    requires StartsWith(line, AssignmentPrefix)
    ensures Contains(line, TrunkIdVar)
  {
    assert line[..|TrunkIdVar|] == AssignmentPrefix[..|TrunkIdVar|];
  }

  /** A text with an assignment line mentions the key. */
  lemma AssignmentLinesMentionKey(content: string)
    ensures HasAssignment(Split(content, '\n')) ==> Contains(content, TrunkIdVar)
  {
    var lines := Split(content, '\n');
    if HasAssignment(lines) {
      var i :| 0 <= i < |lines| && StartsWith(lines[i], AssignmentPrefix);
      AssignmentMentionsKey(lines[i]);
      JoinContains(lines, i, '\n', TrunkIdVar);
      JoinSplit(content, '\n');
    }
  }

  /** The rewritten lines are still free of newlines. */
  lemma RewriteKeepsLines(lines: seq<string>, id: string)
    requires forall i :: 0 <= i < |lines| ==> '\n' !in lines[i]
    requires '\n' !in id
    ensures forall i :: 0 <= i < |lines| ==> '\n' !in RewriteLines(lines, id)[i]
  {
    assert '\n' !in AssignmentPrefix;
  }

  /** The text obtained by rewriting the lines of `content`, split again,
      gives exactly the rewritten lines. */
  lemma RewriteSplits(content: string, id: string)
    requires '\n' !in id
    ensures var lines := Split(content, '\n');
            Split(Join(RewriteLines(lines, id), '\n'), '\n') == RewriteLines(lines, id)
  {
    var lines := Split(content, '\n');
    RewriteKeepsLines(lines, id);
    SplitJoin(RewriteLines(lines, id), '\n');
  }

  /** When the key is mentioned, the line count is kept, every assignment line
      becomes `INBOUND_TRUNK_ID=<id>` and every other line is unchanged. */
  lemma UpdateRewritesAssignments(content: string, id: string)
    requires Contains(content, TrunkIdVar)
    requires '\n' !in id
    ensures var before, after := Split(content, '\n'), Split(UpdateEnv(content, id), '\n');
            && |after| == |before|
            && (forall i :: 0 <= i < |before| && StartsWith(before[i], AssignmentPrefix) ==> after[i] == Assignment(id))
            && (forall i :: 0 <= i < |before| && !StartsWith(before[i], AssignmentPrefix) ==> after[i] == before[i])
  {
    RewriteSplits(content, id);
  }

  /** An assignment of a newline-free id is a single line. */
  lemma AssignmentIsOneLine(id: string)
    requires '\n' !in id
    ensures '\n' !in Assignment(id)
  {
    assert '\n' !in AssignmentPrefix;
  }

  /** Appending after the existing content: the content is a prefix, and the
      lines are the old ones followed by the assignment. */
  lemma AppendedAssignment(content: string, id: string)
    requires '\n' !in id
    ensures StartsWith(content + "\n" + Assignment(id), content)
    ensures Split(content + "\n" + Assignment(id), '\n') == Split(content, '\n') + [Assignment(id)]
  {
    var lines, a := Split(content, '\n'), Assignment(id);
    var text := content + "\n" + a;
    assert text[..|content|] == content;
    JoinSplit(content, '\n');
    JoinAppend(lines, a, '\n');
    assert text == Join(lines + [a], '\n');
    AssignmentIsOneLine(id);
    var pieces := lines + [a];
    assert forall i :: 0 <= i < |pieces| ==> '\n' !in pieces[i] by {
      forall i | 0 <= i < |pieces| ensures '\n' !in pieces[i] {
        if i < |lines| { assert pieces[i] == lines[i]; }
      }
    }
    SplitJoin(pieces, '\n');
  }

  /** When the key is not mentioned, the original content is a prefix of the
      result and the last line is the new assignment. */
  lemma UpdateAppendsWhenUnmentioned(content: string, id: string)
    requires !Contains(content, TrunkIdVar)
    ensures UpdateEnv(content, id) == content + "\n" + Assignment(id)
    ensures StartsWith(UpdateEnv(content, id), content)
    ensures '\n' !in id ==> Split(UpdateEnv(content, id), '\n') == Split(content, '\n') + [Assignment(id)]
  {
    assert (content + "\n" + Assignment(id))[..|content|] == content;
    if '\n' !in id {
      AppendedAssignment(content, id);
    }
  }

  /** With no assignment line to rewrite, the file is written back
      unchanged, since split and join are inverse. */
  lemma UpdateKeepsContentWithoutAssignment(content: string, id: string)
    requires Contains(content, TrunkIdVar)
    requires !HasAssignment(Split(content, '\n'))
    ensures UpdateEnv(content, id) == content
  {
    var lines := Split(content, '\n');
    assert RewriteLines(lines, id) == lines;
    JoinSplit(content, '\n');
  }

  /** The result always mentions the key. */
  lemma UpdateMentionsKey(content: string, id: string)
    ensures Contains(UpdateEnv(content, id), TrunkIdVar)
  {
    var lines := Split(content, '\n');
    if Contains(content, TrunkIdVar) {
      if HasAssignment(lines) {
        var i :| 0 <= i < |lines| && StartsWith(lines[i], AssignmentPrefix);
        var rewritten := RewriteLines(lines, id);
        assert StartsWith(rewritten[i], AssignmentPrefix);
        AssignmentMentionsKey(rewritten[i]);
        JoinContains(rewritten, i, '\n', TrunkIdVar);
      } else {
        UpdateKeepsContentWithoutAssignment(content, id);
      }
    } else {
      AssignmentMentionsKey(Assignment(id));
      ContainsAfterPrefix(content + "\n", Assignment(id), TrunkIdVar);
    }
  }

  /** Rewriting twice with one id is rewriting once. */
  lemma RewriteTwice(lines: seq<string>, id: string)
    ensures RewriteLines(RewriteLines(lines, id), id) == RewriteLines(lines, id)
  {
    assert StartsWith(Assignment(id), AssignmentPrefix);
  }

  /** Updating twice with the same id gives the result of updating once. */
  lemma UpdateIdempotent(content: string, id: string)
    requires '\n' !in id
    ensures UpdateEnv(UpdateEnv(content, id), id) == UpdateEnv(content, id)
  {
    var lines := Split(content, '\n');
    var once := UpdateEnv(content, id);
    UpdateMentionsKey(content, id);
    if Contains(content, TrunkIdVar) {
      RewriteSplits(content, id);
      RewriteTwice(lines, id);
    } else {
      AppendedAssignment(content, id);
      AssignmentLinesMentionKey(content);
      assert !HasAssignment(lines);
      assert RewriteLines(lines + [Assignment(id)], id) == lines + [Assignment(id)] by {
        assert StartsWith(Assignment(id), AssignmentPrefix);
      }
      JoinSplit(once, '\n');
    }
  }

  /** The script as written drops the id when the key is only mentioned, say
      in a comment: a file holding just `# INBOUND_TRUNK_ID` comes back
      unchanged and assigns nothing. The text is a parameter fixed by the
      precondition so that the solver does not unfold the functions on
      literal text. */
  lemma UpdateDropsIdAfterComment(content: string, id: string)
    requires content == "# " + TrunkIdVar
    ensures UpdateEnv(content, id) == content
    ensures !HasAssignment(Split(UpdateEnv(content, id), '\n'))
  {
    assert StartsWith(TrunkIdVar, TrunkIdVar);
    ContainsAfterPrefix("# ", TrunkIdVar, TrunkIdVar);
    assert '\n' !in content;
    assert !StartsWith(content, AssignmentPrefix) by { assert content[0] != AssignmentPrefix[0]; }
    assert Split(content, '\n') == [content];
    UpdateKeepsContentWithoutAssignment(content, id);
  }

  /** The intended update always records the id: some line of the result is
      the assignment, and every line that did not assign the id is kept. */
  lemma UpdateRecordedAssigns(content: string, id: string)
    requires '\n' !in id
    ensures var before, after := Split(content, '\n'), Split(UpdateEnvRecorded(content, id), '\n');
            && (exists i :: 0 <= i < |after| && after[i] == Assignment(id))
            && |before| <= |after| <= |before| + 1
            && forall i :: 0 <= i < |before| && !StartsWith(before[i], AssignmentPrefix) ==> after[i] == before[i]
  {
    var lines := Split(content, '\n');
    if HasAssignment(lines) {
      RewriteSplits(content, id);
      var i :| 0 <= i < |lines| && StartsWith(lines[i], AssignmentPrefix);
      assert Split(UpdateEnvRecorded(content, id), '\n')[i] == Assignment(id);
    } else {
      AppendedAssignment(content, id);
      assert Split(UpdateEnvRecorded(content, id), '\n')[|lines|] == Assignment(id);
    }
  }

  /** The intended update agrees with the script whenever the script records
      the id. */
  lemma UpdateRecordedAgrees(content: string, id: string)
    requires HasAssignment(Split(content, '\n')) || !Contains(content, TrunkIdVar)
    ensures UpdateEnvRecorded(content, id) == UpdateEnv(content, id)
  {
    AssignmentLinesMentionKey(content);
  }

  /** The intended update is idempotent too. */
  lemma UpdateRecordedIdempotent(content: string, id: string)
    requires '\n' !in id
    ensures UpdateEnvRecorded(UpdateEnvRecorded(content, id), id) == UpdateEnvRecorded(content, id)
  {
    var lines := Split(content, '\n');
    var once := UpdateEnvRecorded(content, id);
    if HasAssignment(lines) {
      RewriteSplits(content, id);
      RewriteTwice(lines, id);
      var i :| 0 <= i < |lines| && StartsWith(lines[i], AssignmentPrefix);
      assert StartsWith(RewriteLines(lines, id)[i], AssignmentPrefix);
    } else {
      AppendedAssignment(content, id);
      assert StartsWith(Assignment(id), AssignmentPrefix);
      var after := lines + [Assignment(id)];
      assert StartsWith(after[|lines|], AssignmentPrefix);
      assert RewriteLines(after, id) == after;
      JoinSplit(once, '\n');
    }
  }

  /** What the script's update does with a newline-free id, in the two
      cases that decide it: the id is assigned when the file has an
      assignment line or does not mention the key, and the file comes back
      unchanged when it only mentions the key. */
  lemma UpdateCases(content: string, id: string)
    ensures '\n' !in id && (HasAssignment(Split(content, '\n')) || !Contains(content, TrunkIdVar)) ==>
              var after := Split(UpdateEnv(content, id), '\n');
              exists i :: 0 <= i < |after| && after[i] == Assignment(id)
    ensures Contains(content, TrunkIdVar) && !HasAssignment(Split(content, '\n')) ==>
              UpdateEnv(content, id) == content
  {
    if HasAssignment(Split(content, '\n')) || !Contains(content, TrunkIdVar) {
      UpdateRecordedAgrees(content, id);
      if '\n' !in id {
        UpdateRecordedAssigns(content, id);
      }
    } else {
      UpdateKeepsContentWithoutAssignment(content, id);
    }
  }

  /** The corrected update always assigns a newline-free id. */
  lemma RecordedCases(content: string, id: string)
    ensures '\n' !in id ==>
              var after := Split(UpdateEnvRecorded(content, id), '\n');
              exists i :: 0 <= i < |after| && after[i] == Assignment(id)
  {
    if '\n' !in id {
      UpdateRecordedAssigns(content, id);
    }
  }

  // ---------------------------------------------------------------------
  // The whole script

  /** One run: the request sent, what the creation returned or raised, and
      the `.env` text written, if the file could be read and written. */
  datatype TrunkRun = TrunkRun(request: TrunkInfo, result: Result<string, string>, envWritten: Option<string>)

  /** `create_inbound_trunk`: the trunk request is sent; a failure is raised
      again to the caller; on success the id is recorded in `.env` with the
      script's update (`envFile` is its content, `None` when it cannot be
      read or written, which is only reported) and returned. The id is
      assigned only when the file has an assignment line or does not mention
      the key; a file that only mentions it is written back unchanged, though
      the script reports the id as recorded. */
  function CreateInboundTrunk(source: TrunkSource, created: Result<string, string>, envFile: Option<string>): (run: TrunkRun)
    ensures run.request == TrunkRequest(source)
    ensures run.result == created
    ensures run.envWritten.Some? <==> created.Ok? && envFile.Some?
    ensures run.envWritten.Some? ==> run.envWritten == Some(UpdateEnv(envFile.value, created.value))
    ensures run.envWritten.Some? && '\n' !in created.value
            && (HasAssignment(Split(envFile.value, '\n')) || !Contains(envFile.value, TrunkIdVar)) ==>
              var after := Split(run.envWritten.value, '\n');
              exists i :: 0 <= i < |after| && after[i] == Assignment(created.value)
    ensures run.envWritten.Some? && Contains(envFile.value, TrunkIdVar) && !HasAssignment(Split(envFile.value, '\n')) ==>
              run.envWritten == envFile
  {
    match created
    case Err(e) => TrunkRun(TrunkRequest(source), created, None)
    case Ok(id) =>
      match envFile
      case None => TrunkRun(TrunkRequest(source), created, None)
      case Some(content) =>
        UpdateCases(content, id);
        TrunkRun(TrunkRequest(source), created, Some(UpdateEnv(content, id)))
  }

  /** The run as evidently intended: the same request and result, and the id
      recorded with the corrected update, so a newline-free id is always
      assigned; it writes what the script writes whenever the script records
      the id. */
  function CreateInboundTrunkRecorded(source: TrunkSource, created: Result<string, string>, envFile: Option<string>): (run: TrunkRun)
    ensures run.request == CreateInboundTrunk(source, created, envFile).request
    ensures run.result == created
    ensures run.envWritten.Some? <==> created.Ok? && envFile.Some?
    ensures run.envWritten.Some? && '\n' !in created.value ==>
              var after := Split(run.envWritten.value, '\n');
              exists i :: 0 <= i < |after| && after[i] == Assignment(created.value)
    ensures envFile.Some? && (HasAssignment(Split(envFile.value, '\n')) || !Contains(envFile.value, TrunkIdVar)) ==>
              run == CreateInboundTrunk(source, created, envFile)
  {
    match created
    case Err(e) => TrunkRun(TrunkRequest(source), created, None)
    case Ok(id) =>
      match envFile
      case None => TrunkRun(TrunkRequest(source), created, None)
      case Some(content) =>
        RecordedCases(content, id);
        AssignmentLinesMentionKey(content);
        TrunkRun(TrunkRequest(source), created, Some(UpdateEnvRecorded(content, id)))
  }
}
